=== FILE: README.md ===
# Plant care app — a Dafny model of its services and page logic

The application is a single-page plant-care companion. Users keep a garden of plants,
follow a care calendar, diagnose problems from a photo and keep a journal. All data
lives in two in-memory mock services:

- `PlantService` holds plants, species and care tasks. It offers get/create/update/delete,
  watering, calendar task generation and mock identification and diagnosis.
- `JournalService` holds journal entries and a copy of the plants.

The pages over these services hold small amounts of state: the calendar with its day dots
and reminders, the journal list with its filter and form, the add-plant and diagnose step
flows, the plant detail view, the health colours and filters, and the bottom navigation.

The model describes each service as a pure function from a `Store` value to a new store
and a result. Thrown errors become `Result.Err` carrying the service's message. Each page
handler is a pure function of the page state and the settled outcome of the service call
it awaits. `Math.random()` becomes a parameter of type `Environment.Draw`, a real in
`[0, 1)`. The clock becomes an explicit `nowMs` / `nowIso` parameter, and each `Date.now()` that names a new record (`newId`, `photoId`) is a parameter of its own, since two readings may differ. JavaScript
truthiness of optional strings (`x || fallback`) is `Outcomes.OrElse`.

Modules, one per file:

- `Outcomes` (outcomes.dfy): `Option`, `Result`, the failure kinds and `||` on optional strings.
- `Lists` (lists.dfy): `filter`, `findIndex`, `splice`, `map`-replace and a descending sort, with their laws.
- `Dates` (dates.dfy): calendar dates, month lengths and date-fns `addMonths`.
- `Records` (records.dfy): plant, species, task and journal records, and the `{ ...a, ...b }` shallow merge.
- `Environment` (environment.dfy): random draws and `Math.floor(Math.random() * n)`.
- `PlantService` (plant_service.dfy): the plant service.
- `JournalService` (journal_service.dfy): the journal service.
- `Routes` (routes.dfy): the route table, the navigation list and the active-tab rule.
- `Health` (health.dfy): the health colour bands, the gallery filter and counts, overall health and the dashboard view choice.
- `CalendarView` (calendar_view.dfy): day filtering, per-type dots, complete/skip, month navigation and reminders.
- `JournalView` (journal_view.dfy): adding, deleting, filtering and counting entries, and the add-entry form.
- `AddPlantFlow` (add_plant_flow.dfy): capture, identify and setup steps, the nickname check and the progress badges.
- `DiagnoseFlow` (diagnose_flow.dfy): the diagnose step machine.
- `PlantDetailView` (plant_detail_view.dfy): loading, rendering and watering on the detail page.

## Model

| member | source | states |
|---|---|---|
| Outcomes.OrElse | src/services/api/plantService.js:64 | `x \|\| fallback` on an optional string: the value when it is present and non-empty, the fallback otherwise |
| Lists.Keep | src/config/routes.js:72 | `Array.prototype.filter`: no longer than its input, and every element it keeps satisfies the predicate and comes from the input |
| Lists.KeepComplete | src/config/routes.js:72 | the filter drops no element that satisfies the predicate |
| Lists.KeepBetween | src/config/routes.js:71-72 | a filter that rejects a prefix and a suffix and accepts everything between them returns exactly that middle slice |
| Lists.KeepAppend | src/components/pages/JournalPage.jsx:65-67 | filtering distributes over concatenation, so a prepended entry is filtered on its own and stays in front |
| Lists.KeepCommute | src/components/pages/CalendarPage.jsx:121 | two filters applied in either order give the same list |
| Lists.KeepDisjointCount | src/components/organisms/PlantGallery.jsx:23-27 | two filters with mutually exclusive predicates select at most as many elements as the input holds, together |
| Lists.FirstIndex | src/services/api/plantService.js:87 | `findIndex`: the index of the first element that matches, or none exactly when no element matches |
| Lists.RemoveAt | src/services/api/plantService.js:99 | `splice(i, 1)`: one element shorter; elements before `i` stay, later ones shift down by one; the multiset loses exactly `s[i]` |
| Lists.ReplaceWhere | src/components/pages/CalendarPage.jsx:102 | `map(t => p(t) ? x : t)`: same length; matching positions hold `x` and the rest are untouched |
| Lists.SortDesc | src/services/api/journalService.js:17 | a sort by descending key: the result is ordered and is a permutation of the input |
| Dates.DaysInMonth | src/components/pages/CalendarPage.jsx:118-120 | Gregorian month lengths: 28 to 31 days, with February at 29 exactly in leap years |
| Dates.AddMonths | src/components/pages/CalendarPage.jsx:115 | date-fns `addMonths`: a valid date exactly `n` months later that keeps the day when it fits, and otherwise clamps it to the month's last day |
| Dates.AddMonthsRoundTrip | src/components/pages/CalendarPage.jsx:114-116 | for days up to 28, one month forward and one back returns to the same date |
| Dates.AddMonthsClampsLateDays | src/components/pages/CalendarPage.jsx:114-116 | 31 January 2024 goes forward to 29 February, and then back to 29 January rather than 31 |
| Records.MergePlant | src/services/api/plantService.js:90 | `{ ...plant, ...data }`: each of the fifteen keys takes the patch's value when the patch carries it and keeps the plant's otherwise |
| Records.MergePlantLaws | src/services/api/plantService.js:90 | `{ ...plant, ...data }`: an empty patch changes nothing, merging is idempotent, and an absent key keeps its old value |
| Records.MergePlantCompose | src/services/api/plantService.js:85-92 | two successive updates equal one update with the union of their keys, where the later patch wins |
| Records.MergeEntry | src/services/api/journalService.js:56 | `{ ...entry, ...data }`: each of the eight keys takes the patch's value when the patch carries it and keeps the entry's otherwise |
| Records.MergeEntryLaws | src/services/api/journalService.js:56 | the same shallow-merge laws for journal entries |
| Records.TypeName | src/services/api/plantService.js:122-123 | a task's `type` string is one of the four care names exactly for the care kinds |
| Records.TypeNameInjective | src/services/api/plantService.js:122-123 | different kinds carry different type names |
| Environment.Scaled | src/services/api/plantService.js:67-70 | `Math.floor(Math.random() * n)` lies in `0..n-1` |
| PlantService.SpeciesOf | src/services/api/plantService.js:20 | `species.find`: the first species with the requested id, or none exactly when no species has that id |
| PlantService.DaysOld | src/services/api/plantService.js:21 | the whole days elapsed since planting, rounded down |
| PlantService.GetAll | src/services/api/plantService.js:16-23 | every plant in store order, each with the `find` result for its species id and its age in whole days |
| PlantService.CareHistory | src/services/api/plantService.js:34-47 | a watering line always, and a fertilizing line exactly when `lastFertilized` is set |
| PlantService.MakeStats | src/services/api/plantService.js:48-53 | each random statistic lies in its documented range |
| PlantService.GetById | src/services/api/plantService.js:25-55 | fails with "Plant not found" exactly when no plant has the id; otherwise returns the first stored plant with that id, with its species, its age in whole days, its care history and the drawn statistics |
| PlantService.NewPlant | src/services/api/plantService.js:57-83 | a new plant has the given id, user `user-1` and status `healthy`; location falls back to `'Indoor'` and notes to `''`; the gauges fall in their ranges; the photo list holds exactly the captured photo, under its own `Date.now()` id and with the creation timestamp |
| PlantService.Create | src/services/api/plantService.js:57-83 | appends exactly the new plant and leaves species and tasks alone |
| PlantService.CreateThenGet | src/services/api/plantService.js:25-83 | when no stored plant has the new id, fetching that id after creating the plant returns the created record |
| PlantService.Update | src/services/api/plantService.js:85-92 | "Plant not found" exactly when the id is absent; otherwise only the first plant with that id is merged, and every other plant and the length stay as they were |
| PlantService.Delete | src/services/api/plantService.js:94-101 | "Plant not found" exactly when the id is absent; otherwise the first plant with that id is removed and the rest keep their order |
| PlantService.DeleteThenGetFails | src/services/api/plantService.js:25-101 | with unique ids, a deleted plant can no longer be fetched |
| PlantService.DeleteWithCollidingIds | src/services/api/plantService.js:59-101 | two plants with the same timestamp id: delete removes only the first, and the id still resolves to the second |
| PlantService.WateredLevel | src/services/api/plantService.js:162 | a watering adds 30 to the water level, capped at 100, and never lowers a level that is at most 100 |
| PlantService.WaterPlant | src/services/api/plantService.js:156-165 | "Plant not found" exactly when the id is absent; otherwise only that plant changes, in `lastWatered` and `waterLevel` alone |
| PlantService.WaterKeepsLevelsCapped | src/services/api/plantService.js:57-165 | creating and watering keep every water level at or below 100 |
| PlantService.TitleTable | src/services/api/plantService.js:242-247 | the `titles` object has an entry exactly for the four care type names |
| PlantService.TaskTitle | src/services/api/plantService.js:241-249 | only the four care kinds get a title other than "Care task" |
| PlantService.TaskTitleFromTable | src/services/api/plantService.js:241-249 | the title is the `titles` entry for the task's type name, or "Care task" when there is none |
| PlantService.TaskTitleInjective | src/services/api/plantService.js:241-249 | distinct care kinds have distinct titles |
| PlantService.CompleteTask | src/services/api/plantService.js:141-148 | always succeeds; the first task with the id gains a completion time and nothing else changes; an unknown id changes nothing |
| PlantService.SkipTask | src/services/api/plantService.js:150-154 | skipping stamps the first task with the id with a completion time and changes nothing else (no task, plant or species); an unknown id changes nothing, and it never fails |
| PlantService.TimeAgo | src/services/api/plantService.js:251-261 | minutes below an hour, hours below a day, days otherwise, each the floor of the elapsed time in that unit |
| PlantService.FutureIsNegativeMinutes | src/services/api/plantService.js:251-261 | a time in the future is reported as a negative number of minutes |
| PlantService.DayTask | src/services/api/plantService.js:120-134 | a generated task is an open care task at midnight of that day with its kind's title and the day's draw id, for a stored plant or the literal `plant-1` (always `plant-1` in an empty garden) |
| PlantService.GetCalendarTasks | src/services/api/plantService.js:112-139 | at most one task per day, in day order, each dated in the month; a day has a task exactly when its 30% draw selects it, and that task is exactly the one the day's draws produce |
| PlantService.Score | src/services/api/plantService.js:176-178 | each candidate's confidence lies in 70..99 |
| PlantService.IdentifyPlant | src/services/api/plantService.js:172-182 | up to three of the first species, most confident first, as a permutation of the scored candidates |
| PlantService.DiagnosePlant | src/services/api/plantService.js:184-239 | one of the two fixed diagnoses, whatever the image and symptoms |
| JournalService.PlantName | src/services/api/journalService.js:16 | the nickname of the first plant with the entry's plant id, or "Unknown Plant" when no plant matches or that nickname is empty |
| JournalService.GetAllNames | src/services/api/journalService.js:12-18 | every listed entry of a plant carries the nickname of the first plant record with that id, or "Unknown Plant" |
| JournalService.ListAll | src/services/api/journalService.js:14-16 | every entry, decorated with its plant name, in store order |
| JournalService.GetAll | src/services/api/journalService.js:12-18 | every entry exactly once, newest first, each with its plant's name |
| JournalService.GetById | src/services/api/journalService.js:20-29 | "Journal entry not found" exactly when the id is absent; otherwise the first stored entry with that id and its plant name |
| JournalService.Create | src/services/api/journalService.js:31-49 | appends one entry stamped with the current time, with notes, photos and measurements defaulted when absent |
| JournalService.Update | src/services/api/journalService.js:51-61 | the error exactly when the id is absent; otherwise only the first matching entry is merged, and it is returned with its plant name |
| JournalService.Delete | src/services/api/journalService.js:63-70 | the error exactly when the id is absent; otherwise the first matching entry is removed and the rest keep their order |
| JournalService.GetPlants | src/services/api/journalService.js:72-75 | a copy of the plant list |
| JournalService.PlantsUntouched | src/services/api/journalService.js:31-75 | no entry operation changes the plant list |
| JournalService.NewestEntryListedFirst | src/services/api/journalService.js:12-49 | when no stored entry lies in the future, the listing after `create` starts with an entry dated now |
| JournalService.NewEntryHeadsListing | src/services/api/journalService.js:12-49 | when every stored entry is strictly older, the entry `create` returns, with its plant name, is the first one `getAll` lists |
| Routes.RouteArray | src/config/routes.js:11-71 | the eight routes in declaration order, each under its own key |
| Routes.VisibleAreMiddle | src/config/routes.js:11-72 | the routes not hidden from navigation are exactly the second to sixth declared |
| Routes.NavigationRoutes | src/config/routes.js:72 | exactly the routes without `hideInNav`, all taken from the route array |
| Routes.NavigationTabs | src/config/routes.js:72 | the bar shows five tabs: dashboard, plants, calendar, diagnose, journal |
| Routes.TabColor | src/Layout.jsx:49-55 | a tab is highlighted exactly when it is active by path or by the router |
| Routes.IsActive | src/Layout.jsx:22-23 | a tab is active on its own path, only on paths that extend its path, and the dashboard tab only on `/dashboard` itself |
| Routes.IsActiveCharacterized | src/Layout.jsx:22-23 | a tab is active on its own path; every tab except the dashboard is also active on any path with its path as a prefix |
| Routes.PrefixExamples | src/Layout.jsx:22-23 | `/plants/42` and even `/plantsx` activate the plants tab, while `/dashboard/x` does not activate the dashboard tab |
| Health.HealthColor | src/components/molecules/PlantDisplayCard.jsx:5-9 | the text colour names the score's health band |
| Health.HealthBgColor | src/components/molecules/PlantDisplayCard.jsx:11-15 | the background colour names the same band |
| Health.ClassifyBands | src/components/molecules/PlantDisplayCard.jsx:5-15 | the bands are at least 80, 60 to 79, and below 60, and they are monotone in the score |
| Health.ColorsAgree | src/components/molecules/PlantDisplayCard.jsx:5-15 | the text and background colours of one score always name the same band |
| Health.FilterPlants | src/components/organisms/PlantGallery.jsx:11-16 | the shown list is drawn from the garden and never longer; under `healthy` every plant scores at least 80, under `needs-attention` every plant below 60 |
| Health.FilterPlantsMeaning | src/components/organisms/PlantGallery.jsx:11-16 | `healthy` keeps exactly the scores of at least 80; `needs-attention` keeps exactly those below 60; any other filter keeps everything; a 60–79 plant appears under neither |
| Health.Counts | src/components/organisms/PlantGallery.jsx:23-27 | each badge count equals the length of the list its filter shows, and healthy plus needs-care never exceeds all |
| Health.OverallHealth | src/components/organisms/DashboardContent.jsx:66-70 | `getOverallHealth`: 0 for an empty garden, otherwise the mean score rounded to the nearest integer with halves up |
| Health.RoundDiv | src/components/organisms/DashboardContent.jsx:69 | `Math.round(num / den)`: the nearest integer, with halves rounded up |
| Health.OverallHealthBetween | src/components/organisms/DashboardContent.jsx:66-70 | the rounded mean health of a non-empty garden lies within the range of its scores |
| Health.RoundBetween | src/components/organisms/DashboardContent.jsx:69 | rounding a mean whose sum lies between `n*lo` and `n*hi` stays within `lo..hi` |
| Health.Dashboard | src/components/MainFeature.jsx:232-284 | exactly one view: the skeleton while loading, then the message when the error is truthy, then the empty-garden prompt exactly when there are no plants, the garden otherwise |
| CalendarView.DayTasks | src/components/pages/CalendarPage.jsx:121 | exactly the tasks scheduled on the selected calendar day |
| CalendarView.Tally | src/components/molecules/CalendarDayCell.jsx:7-10 | `tasksByType`: one entry per distinct type name, each counting that type's tasks, with counts summing to the number of tasks |
| CalendarView.BumpTallies | src/components/molecules/CalendarDayCell.jsx:8 | one reducer step keeps the tally exact for the list extended by one task |
| CalendarView.OccurrenceWitness | src/components/molecules/CalendarDayCell.jsx:7-10 | a type with a non-zero count occurs among the tasks |
| CalendarView.FirstOccurrence | src/components/molecules/CalendarDayCell.jsx:7-10 | the position of the first task of a type, or the list's length when none has it |
| CalendarView.Bump | src/components/molecules/CalendarDayCell.jsx:8 | one reducer step: afterwards the type's key is present, and at most one new key was added |
| CalendarView.TallyInFirstOccurrenceOrder | src/components/molecules/CalendarDayCell.jsx:7-10 | `tasksByType` lists its keys in the order their types first occur, which decides the three dots shown |
| CalendarView.DayDots | src/components/molecules/CalendarDayCell.jsx:27-29 | at most three dots, the first entries of the tally, shown exactly when the day has tasks |
| CalendarView.RemoveTask | src/components/pages/CalendarPage.jsx:40-58 | after a successful complete or skip every task with the id leaves the list and all others stay; a failure changes nothing |
| CalendarView.RemoveTaskOrder | src/components/pages/CalendarPage.jsx:43 | the removal acts on each part of a list separately, and leaves a list without the id unchanged |
| CalendarView.CompleteAlwaysRemoves | src/components/pages/CalendarPage.jsx:40-58 | since the service never fails, complete and skip always drop the task, and the selected day's list loses exactly it |
| CalendarView.NavigateMonth | src/components/pages/CalendarPage.jsx:114-116 | `'next'` moves one month forward and any other direction one month back, giving a valid date |
| CalendarView.NavigateBackAndForth | src/components/pages/CalendarPage.jsx:114-116 | forward then back returns to the same date when its day is at most 28 |
| CalendarView.WithReminder | src/components/pages/CalendarPage.jsx:81-86 | the task gains a reminder time, an enabled flag and an unsent flag, and keeps every other field |
| CalendarView.Effective | src/components/pages/CalendarPage.jsx:75-79 | a permission that is still undecided is replaced by the answer to the request; a decided one stands |
| CalendarView.SaveReminder | src/components/pages/CalendarPage.jsx:70-113 | no selected task means no effect. With permission, a successful save replaces the task, arms a timer exactly for a future time and closes the modal, while a failed save leaves everything open. Without permission the modal closes and the tasks stay |
| CalendarView.SaveReminderIdempotent | src/components/pages/CalendarPage.jsx:70-113 | saving the same reminder twice leaves the same task list as saving it once |
| CalendarView.SaveReminderAsWritten | src/components/pages/CalendarPage.jsx:88 | as written, a granted reminder changes nothing: the call throws into the catch |
| CalendarView.ReminderNeverSavedAsWritten | src/components/pages/CalendarPage.jsx:70-113 | as written, the page state is unchanged, while the intended handler stores the reminder and closes the modal |
| JournalView.AddEntry | src/components/pages/JournalPage.jsx:42-51 | a created entry goes in front of the list; a failure changes nothing |
| JournalView.DeleteEntry | src/components/pages/JournalPage.jsx:53-63 | without confirmation or after a failure nothing changes; otherwise exactly the entries with other ids remain |
| JournalView.FilterEntries | src/components/pages/JournalPage.jsx:65-67 | `'all'` shows everything; any other value shows exactly that plant's entries |
| JournalView.CountMatchesFilter | src/components/pages/JournalPage.jsx:141 | a plant's count in the filter menu equals the length of its filtered list |
| JournalView.AddedEntryCounted | src/components/pages/JournalPage.jsx:42-67 | a new entry is listed first under its plant's filter and raises that plant's count by one, and no other plant's |
| JournalView.DeleteNeverGrowsCounts | src/components/pages/JournalPage.jsx:53-63 | a confirmed delete grows no plant's count and leaves no entry with the id |
| JournalView.EntryTypeId | src/components/organisms/AddJournalEntryModal.jsx:22-28 | each entry type maps to one of the five button ids |
| JournalView.EntryTypeIdInjective | src/components/organisms/AddJournalEntryModal.jsx:22-28 | the five buttons carry five different ids |
| JournalView.SelectType | src/components/organisms/AddJournalEntryModal.jsx:101 | picking a type changes the type and nothing else |
| JournalView.Submit | src/components/organisms/AddJournalEntryModal.jsx:30-45 | rejected, keeping the form, exactly when the plant or the title is empty; otherwise the form is handed on and reset |
| JournalView.SubmitOnce | src/components/organisms/AddJournalEntryModal.jsx:9-45 | a second submit right after a successful one is rejected, and every created entry has a plant and a title |
| AddPlantFlow.Trim | src/components/organisms/PlantSetupForm.jsx:19 | `trim()` is a slice of the input with only white space cut before and after it, and it has no white space left at either end |
| AddPlantFlow.TrimEmptyIffBlank | src/components/organisms/PlantSetupForm.jsx:19 | a string trims to nothing exactly when it is all white space |
| AddPlantFlow.InitialSetup | src/components/organisms/PlantSetupForm.jsx:10-15 | the form opens with empty text fields and today's date |
| AddPlantFlow.SubmitSetup | src/components/organisms/PlantSetupForm.jsx:17-24 | rejected exactly when the nickname is blank; otherwise the untrimmed form goes on with the species |
| AddPlantFlow.Next | src/components/pages/AddPlantPage.jsx:20-55 | capture moves to identification, a pick moves to setup, retake restarts, and back drops the species |
| AddPlantFlow.NextKeepsConsistent | src/components/pages/AddPlantPage.jsx:119-145 | every offered event keeps the step, photo and species consistent |
| AddPlantFlow.BackAndRetake | src/components/pages/AddPlantPage.jsx:46-55 | going back then making the same pick returns to the same state; going back then retaking restarts the flow |
| AddPlantFlow.Complete | src/components/pages/AddPlantPage.jsx:30-44 | `create` receives the form fields, the species and the captured photo |
| AddPlantFlow.CompletedPlantHasPhoto | src/components/pages/AddPlantPage.jsx:30-44 | a plant added from setup carries exactly the captured photo, and an empty location yields `'Indoor'` |
| AddPlantFlow.StepBadge | src/components/pages/AddPlantPage.jsx:95-111 | each badge is current, done or pending as its step is at, behind or ahead of the current one |
| AddPlantFlow.ConnectorFilled | src/components/pages/AddPlantPage.jsx:95-111 | a connector is filled exactly when the step before it is done |
| AddPlantFlow.ForwardMarksDone | src/components/pages/AddPlantPage.jsx:20-28 | moving forward marks the step just left as done and advances the index by one |
| DiagnoseFlow.Next | src/components/pages/DiagnosePage.jsx:19-57 | each handler's effect; a failed analysis returns to the prompt and keeps the image and symptoms |
| DiagnoseFlow.NextKeepsConsistent | src/components/pages/DiagnosePage.jsx:66-130 | loading is raised exactly while analysing, an image exists from the symptom step on, and the result step has a diagnosis |
| DiagnoseFlow.SkipIsEmptySelection | src/components/pages/DiagnosePage.jsx:19-57 | skipping symptoms is choosing none |
| DiagnoseFlow.HappyPath | src/components/pages/DiagnosePage.jsx:19-57 | a full pass ends on the result with the captured image and the service's diagnosis; a failure ends at the prompt with the image kept |
| PlantDetailView.Load | src/components/pages/PlantDetailPage.jsx:19-37 | a falsy id leaves the page loading; otherwise loading ends with either the plant, or the error message (or a fixed one) |
| PlantDetailView.Render | src/components/pages/PlantDetailPage.jsx:53-75 | the skeleton while loading, the not-found card (showing the error) when the error is truthy or the plant is missing, the detail otherwise |
| PlantDetailView.LoadOutcomes | src/components/pages/PlantDetailPage.jsx:19-75 | a falsy id keeps the skeleton up for good, an unknown id shows "Plant not found", and a known id shows its plant |
| PlantDetailView.HandleWater | src/components/pages/PlantDetailPage.jsx:39-51 | after a successful watering the local plant's water level and timestamp change and nothing else does; a failure changes nothing |
| PlantDetailView.WaterKeepsPageInSync | src/components/pages/PlantDetailPage.jsx:39-51 | the page's copy stays equal to the store's updated plant, with a level that does not drop and stays at most 100 |

## Left out

- Artificial `delay` calls: they only postpone the result.
- `getTodaysTasks` and `getWeatherData`: the weather data is a fixed snapshot, and today's tasks are a date filter of the same kind as `CalendarView.DayTasks`.
- Rendering: JSX, Tailwind class strings other than the health and tab colours, animations and toasts.
- PlantService.TimeAgo: yields the number and unit; the text `"n minutes ago"` is not built.
- Dates and times: timestamps are integers (`nowMs`) or opaque ISO strings (`nowIso`). ISO parsing, formatting, time zones and date-fns `format` are not modelled. `isSameDay` is equality of the calendar date.
- JournalService.GetAll: the sort key is the entry's date as an integer, standing in for `new Date(b.date) - new Date(a.date)` on ISO strings.
- Lists.SortDesc: the contract states order and permutation but not stability. Ties in the source keep their original order.
- CalendarView.Tally: keys follow first occurrence (CalendarView.TallyInFirstOccurrenceOrder). JavaScript would list integer-like type names first; no task type is one.
- JournalView.AddEntry: the `setShowAddModal(false)` that closes the add modal after a successful create is not modelled; the page's modal flag is not part of the model's state.
- The browser Notification API and `setTimeout`: the permission and its answer to the request are parameters. Only the decision to arm a timer and its delay are modelled.
- `window.confirm` in the journal delete: modelled as a boolean parameter.
- `FileReader` and camera capture: a captured photo is its preview URL.
- Diagnosis causes and treatments: fixed text; only the issue and confidence are modelled.
- JournalService.GetPlants: the journal's plant array is a separate shallow copy of the same fixture as `PlantService`'s, so both arrays share the plant objects, and the in-place change `waterPlant` makes to `lastWatered` and `waterLevel` shows through the journal's `getPlants`. The model keeps two independent lists, so the journal's copy never sees watering. The journal itself reads only `id` and `nickname`, which no operation changes in place.
- PlantService.TaskTitle: a type name that is a property of `Object.prototype` (such as `"constructor"`) would make `titles[type]` a function rather than "Care task". The model gives such names "Care task"; the calendar only passes the four care kinds.
- Patches with keys outside the record's fields: a patch can only carry the record's own fields.
- The older page copies under src/pages/ (Calendar.jsx, Journal.jsx, AddPlant.jsx, Diagnose.jsx, PlantDetail.jsx): they repeat the same handlers, and the model follows the src/components/pages/ versions. Unlike them, CalendarPage.jsx adds the reminder handler.
- `HealthRing` and the other purely presentational components.

## Findings

| source | as written | input that shows it | evidently intended | confidence | as-written member | corrected member |
|---|---|---|---|---|---|---|
| src/components/pages/CalendarPage.jsx:88 | `handleSaveReminder` awaits `plantService.updateTask`, which the plant service (src/services/api/plantService.js:8-262) does not define. The call throws a `TypeError`, so the catch shows "Failed to set reminder" and nothing is saved, replaced or closed | any selected task, with notification permission granted | persist the task with its reminder, replace it in the list, arm the timer and close the modal | high, not executed | CalendarView.SaveReminderAsWritten | CalendarView.SaveReminder |

=== FILE: add_plant_flow.dfy ===
/** The add-plant flow: photo capture, species identification and the setup form, with
    its retake and back edges, the nickname check and the progress indicator. */
module AddPlantFlow {
  import opened Outcomes
  import opened Records
  import PlantService

  // ---------------------------------------------------------------- trimming

  /** The characters `String.prototype.trim` removes: ECMAScript white space and line
      terminators. */
  predicate IsJsSpace(c: char)
  {
    || c == '\t' || c == '\n' || c == '\U{000B}' || c == '\U{000C}' || c == '\r' || c == ' '
    || c == '\U{00A0}' || c == '\U{1680}' || ('\U{2000}' <= c <= '\U{200A}')
    || c == '\U{2028}' || c == '\U{2029}' || c == '\U{202F}' || c == '\U{205F}' || c == '\U{3000}'
    || c == '\U{FEFF}'
  }

  predicate Blank(s: string)
  {
    forall i :: 0 <= i < |s| ==> IsJsSpace(s[i])
  }

  /** `s` without its leading white space. */
  function TrimStart(s: string): (r: string)
    ensures |r| <= |s| && r == s[|s| - |r|..]
    ensures Blank(s[..|s| - |r|])
    ensures |r| > 0 ==> !IsJsSpace(r[0])
    decreases |s|
  {
    if |s| > 0 && IsJsSpace(s[0]) then
      var r := TrimStart(s[1..]);
      assert s[..|s| - |r|] == [s[0]] + s[1..][..|s| - 1 - |r|];
      r
    else
      s
  }

  /** `s` without its trailing white space. */
  function TrimEnd(s: string): (r: string)
    ensures |r| <= |s| && r == s[..|r|]
    ensures Blank(s[|r|..])
    ensures |r| > 0 ==> !IsJsSpace(r[|r| - 1])
    decreases |s|
  {
    if |s| > 0 && IsJsSpace(s[|s| - 1]) then
      var r := TrimEnd(s[..|s| - 1]);
      assert s[|r|..] == s[..|s| - 1][|r|..] + [s[|s| - 1]];
      r
    else
      s
  }

  /** `s.trim()`. */
  function Trim(s: string): (r: string)
    ensures |r| <= |s|
    ensures |r| > 0 ==> !IsJsSpace(r[0]) && !IsJsSpace(r[|r| - 1])
    ensures exists i, j :: 0 <= i <= j <= |s| && r == s[i..j] && Blank(s[..i]) && Blank(s[j..])
  {
    var t := TrimStart(s);
    var r := TrimEnd(t);
    var i, j := |s| - |t|, |s| - |t| + |r|;
    assert r == s[i..j] && s[j..] == t[|r|..];
    r
  }

  /** A string trims to nothing exactly when every character of it is white space. */
  lemma TrimEmptyIffBlank(s: string)
    ensures Trim(s) == "" <==> Blank(s)
  {
  }

  // ---------------------------------------------------------------- the setup form

  /** The setup form's fields; `plantedDate` starts at today. */
  datatype SetupForm = SetupForm(nickname: string, location: string, plantedDate: int, notes: string)

  function InitialSetup(today: int): (f: SetupForm)
    ensures f.nickname == "" && f.location == "" && f.notes == "" && f.plantedDate == today
  {
    SetupForm("", "", today, "")
  }

  /** What the form hands to `onComplete`: its fields plus the chosen species. */
  datatype PlantData = PlantData(form: SetupForm, species: Species)

  /** `handleSubmit` of the setup form: rejected when the nickname is empty or all white
      space; otherwise the form, untrimmed, goes on with the species. Location and notes
      are not checked. */
  function SubmitSetup(form: SetupForm, species: Species): (r: Option<PlantData>)
    ensures r.None? <==> Blank(form.nickname)
    ensures r.Some? ==> r.value.form == form && r.value.species == species
  {
    TrimEmptyIffBlank(form.nickname);
    if Trim(form.nickname) == "" then None else Some(PlantData(form, species))
  }

  // ---------------------------------------------------------------- the step machine

  datatype Step = Capture | Identify | Setup

  /** The page state: current step, captured photo and chosen species. */
  datatype Flow = Flow(step: Step, photo: Option<PlantService.CapturedPhoto>, species: Option<Species>)

  const Start: Flow := Flow(Capture, None, None)

  /** The handlers the page wires to its step components. */
  datatype Event =
    | PhotoCaptured(photo: PlantService.CapturedPhoto)
    | SpeciesIdentified(chosen: Species)
    | Retake
    | BackToIdentify

  /** The events the current screen offers: the camera on the capture step, the
      identification list (pick or retake) once a photo exists, the setup form (back)
      once a species exists. */
  predicate Offered(f: Flow, e: Event)
  {
    match e
    case PhotoCaptured(_) => f.step == Capture
    case SpeciesIdentified(_) => f.step == Identify && f.photo.Some?
    case Retake => f.step == Identify && f.photo.Some?
    case BackToIdentify => f.step == Setup && f.species.Some?
  }

  /** The handlers: capture stores the photo and moves on to identification; a species
      moves on to setup; retake clears both and returns to capture; back clears the
      species, keeps the photo and returns to identification. */
  function Next(f: Flow, e: Event): (g: Flow)
    ensures e.PhotoCaptured? ==> g == f.(step := Identify, photo := Some(e.photo))
    ensures e.SpeciesIdentified? ==> g == f.(step := Setup, species := Some(e.chosen))
    ensures e.Retake? ==> g == Start
    ensures e.BackToIdentify? ==> g == f.(step := Identify, species := None)
  {
    match e
    case PhotoCaptured(p) => f.(step := Identify, photo := Some(p))
    case SpeciesIdentified(s) => f.(step := Setup, species := Some(s))
    case Retake => Flow(Capture, None, None)
    case BackToIdentify => f.(step := Identify, species := None)
  }

  /** What every reachable state satisfies: the capture step holds nothing, the
      identify step a photo but no species, the setup step both. */
  predicate Consistent(f: Flow)
  {
    match f.step
    case Capture => f.photo.None? && f.species.None?
    case Identify => f.photo.Some? && f.species.None?
    case Setup => f.photo.Some? && f.species.Some?
  }

  /** The flow starts consistent and every offered event keeps it so. */
  lemma NextKeepsConsistent(f: Flow, e: Event)
    ensures Consistent(Start)
    ensures Consistent(f) && Offered(f, e) ==> Consistent(Next(f, e))
  {
  }

  /** Back then the same pick returns to the same setup state; retake forgets both. */
  lemma BackAndRetake(f: Flow, s: Species)
    requires Consistent(f) && f.step == Setup && f.species == Some(s)
    ensures Next(Next(f, BackToIdentify), SpeciesIdentified(s)) == f
    ensures Next(Next(f, BackToIdentify), Retake) == Start
  {
  }

  /** `handlePlantComplete`: the setup data with the captured photo, as `create`
      receives it. */
  function Complete(f: Flow, data: PlantData): (input: PlantService.PlantInput)
    ensures input.photo == f.photo
    ensures input.species == data.species && input.nickname == data.form.nickname
    ensures input.location == Some(data.form.location) && input.notes == Some(data.form.notes)
    ensures input.plantedDate == data.form.plantedDate
  {
    PlantService.PlantInput(data.species, data.form.nickname, Some(data.form.location),
                            data.form.plantedDate, Some(data.form.notes), f.photo)
  }

  /** A plant added from a consistent setup step carries exactly the captured photo; a
      form left without a location yields an `'Indoor'` plant. */
  lemma CompletedPlantHasPhoto(f: Flow, form: SetupForm, s: Species, newId: string, photoId: string,
                               nowIso: string, draws: PlantService.GaugeDraws)
    requires Consistent(f) && f.step == Setup
    requires SubmitSetup(form, s).Some?
    ensures var p := PlantService.NewPlant(Complete(f, SubmitSetup(form, s).value), newId, photoId, nowIso, draws);
            && p.photos == [Photo(photoId, f.photo.value.preview, nowIso)]
            && p.nickname == form.nickname && p.speciesId == s.id
            && (form.location == "" ==> p.location == "Indoor")
  {
  }

  // ---------------------------------------------------------------- progress

  function StepIndex(s: Step): nat
  {
    match s
    case Capture => 0
    case Identify => 1
    case Setup => 2
  }

  datatype Badge = Current | Done | Pending

  /** The badge of the `i`-th step of the indicator. */
  function StepBadge(i: nat, current: Step): (b: Badge)
    ensures b == Current <==> i == StepIndex(current)
    ensures b == Done <==> i < StepIndex(current)
    ensures b == Pending <==> i > StepIndex(current)
  {
    if i == StepIndex(current) then Current
    else if i < StepIndex(current) then Done
    else Pending
  }

  /** The connector after the `i`-th badge is filled when that step is behind. */
  function ConnectorFilled(i: nat, current: Step): (filled: bool)
    ensures filled <==> StepBadge(i, current) == Done
  {
    i < StepIndex(current)
  }

  /** Moving forward through the flow turns the badge of the step just left into done. */
  lemma ForwardMarksDone(f: Flow, e: Event)
    requires Consistent(f) && Offered(f, e) && (e.PhotoCaptured? || e.SpeciesIdentified?)
    ensures StepBadge(StepIndex(f.step), Next(f, e).step) == Done
    ensures StepIndex(Next(f, e).step) == StepIndex(f.step) + 1
  {
  }
}

=== FILE: calendar_view.dfy ===
/** The calendar screen over a loaded task list: the tasks of one day, their per-type
    counts and dots, removal on complete or skip, reminders, and month navigation. */
module CalendarView {
  import opened Outcomes
  import opened Lists
  import opened Dates
  import opened Records
  import PlantService

  // ---------------------------------------------------------------- one day

  function OnDay(date: DateTime): Task -> bool
  {
    (t: Task) => SameDay(t.scheduledDate, date)
  }

  /** `dayTasks` of a day cell and `selectedDayTasks` of the page: the tasks scheduled on
      the same calendar day as `date`, in list order. */
  function DayTasks(tasks: seq<Task>, date: DateTime): (r: seq<Task>)
    ensures forall i :: 0 <= i < |r| ==> r[i] in tasks && SameDay(r[i].scheduledDate, date)
    ensures forall i :: 0 <= i < |tasks| && SameDay(tasks[i].scheduledDate, date) ==> tasks[i] in r
  {
    KeepComplete(tasks, OnDay(date));
    Keep(tasks, OnDay(date))
  }

  /** One entry of `tasksByType`: a type name and how many of the day's tasks have it. */
  datatype TypeCount = TypeCount(key: string, count: nat)

  /** How many tasks of `ts` have the type name `k`. */
  function Occurrences(ts: seq<Task>, k: string): nat
  {
    if |ts| == 0 then 0
    else Occurrences(ts[..|ts| - 1], k) + (if TypeName(ts[|ts| - 1].taskType) == k then 1 else 0)
  }

  predicate HasKey(tally: seq<TypeCount>, k: string)
  {
    exists j :: 0 <= j < |tally| && tally[j].key == k
  }

  ghost predicate KeysDistinct(tally: seq<TypeCount>)
  {
    forall i, j :: 0 <= i < j < |tally| ==> tally[i].key != tally[j].key
  }

  function SumCounts(tally: seq<TypeCount>): int
  {
    if |tally| == 0 then 0 else tally[0].count + SumCounts(tally[1..])
  }

  lemma {:induction false} SumCountsAppend(tally: seq<TypeCount>, x: TypeCount)
    ensures SumCounts(tally + [x]) == SumCounts(tally) + x.count
    decreases |tally|
  {
    if |tally| > 0 {
      assert (tally + [x])[1..] == tally[1..] + [x];
      SumCountsAppend(tally[1..], x);
    }
  }

  lemma {:induction false} SumCountsUpdate(tally: seq<TypeCount>, j: nat, x: TypeCount)
    requires j < |tally|
    ensures SumCounts(tally[j := x]) == SumCounts(tally) - tally[j].count + x.count
    decreases |tally|
  {
    if j > 0 {
      assert tally[j := x][1..] == tally[1..][j - 1 := x];
      SumCountsUpdate(tally[1..], j - 1, x);
    }
  }

  function KeyIs(k: string): TypeCount -> bool
  {
    (c: TypeCount) => c.key == k
  }

  /** `acc[type] = (acc[type] || 0) + 1`: the count under an existing key goes up by one;
      a new key is added last, since string keys keep their insertion order. */
  function Bump(tally: seq<TypeCount>, k: string): (r: seq<TypeCount>)
    ensures HasKey(r, k)
    ensures |tally| <= |r| <= |tally| + 1
  {
    match FirstIndex(tally, KeyIs(k))
    case None =>
      assert (tally + [TypeCount(k, 1)])[|tally|].key == k;
      tally + [TypeCount(k, 1)]
    case Some(j) =>
      assert tally[j := TypeCount(k, tally[j].count + 1)][j].key == k;
      tally[j := TypeCount(k, tally[j].count + 1)]
  }

  /** `tally` counts the type names of `ts` exactly: distinct keys, each with its number
      of occurrences (at least one), every occurring name present, counts adding up. */
  ghost predicate Tallies(tally: seq<TypeCount>, ts: seq<Task>)
  {
    && KeysDistinct(tally)
    && (forall j :: 0 <= j < |tally| ==> tally[j].count == Occurrences(ts, tally[j].key) && tally[j].count >= 1)
    && (forall i :: 0 <= i < |ts| ==> HasKey(tally, TypeName(ts[i].taskType)))
    && SumCounts(tally) == |ts|
  }

  /** `tasksByType`: one entry per type name occurring among `ts`, in order of first
      occurrence, holding the number of tasks of that type; the counts add up to |ts|. */
  function Tally(ts: seq<Task>): (r: seq<TypeCount>)
    ensures KeysDistinct(r)
    ensures forall j :: 0 <= j < |r| ==> r[j].count == Occurrences(ts, r[j].key) && r[j].count >= 1
    ensures forall i :: 0 <= i < |ts| ==> HasKey(r, TypeName(ts[i].taskType))
    ensures SumCounts(r) == |ts|
    decreases |ts|
  {
    if |ts| == 0 then []
    else
      var init := ts[..|ts| - 1];
      var prev := Tally(init);
      assert ts == init + [ts[|ts| - 1]];
      BumpTallies(prev, init, ts[|ts| - 1]);
      Bump(prev, TypeName(ts[|ts| - 1].taskType))
  }

  /** Counting one more task keeps the tally exact. */
  lemma BumpTallies(prev: seq<TypeCount>, init: seq<Task>, t: Task)
    requires Tallies(prev, init)
    ensures Tallies(Bump(prev, TypeName(t.taskType)), init + [t])
  {
    match FirstIndex(prev, KeyIs(TypeName(t.taskType)))
    case None => BumpNewKey(prev, init, t);
    case Some(j) => BumpOldKey(prev, init, t, j);
  }

  /** A type name not yet in the tally is added last with count one. */
  lemma BumpNewKey(prev: seq<TypeCount>, init: seq<Task>, t: Task)
    requires Tallies(prev, init)
    requires FirstIndex(prev, KeyIs(TypeName(t.taskType))).None?
    ensures Tallies(Bump(prev, TypeName(t.taskType)), init + [t])
  {
    var ts := init + [t];
    var k := TypeName(t.taskType);
    var r := prev + [TypeCount(k, 1)];
    assert Bump(prev, k) == r;
    assert ts[..|init|] == init;
    SumCountsAppend(prev, TypeCount(k, 1));
    assert Occurrences(init, k) == 0 by {
      if Occurrences(init, k) > 0 {
        OccurrenceWitness(init, k);
      }
    }
    assert r[|prev|].key == k;
    forall i | 0 <= i < |ts| ensures HasKey(r, TypeName(ts[i].taskType)) {
      if i < |init| {
        assert ts[i] == init[i];
        var j :| 0 <= j < |prev| && prev[j].key == TypeName(init[i].taskType);
        assert r[j] == prev[j];
      }
    }
  }

  /** A type name already in the tally has its count raised by one in place. */
  lemma BumpOldKey(prev: seq<TypeCount>, init: seq<Task>, t: Task, j: nat)
    requires Tallies(prev, init)
    requires FirstIndex(prev, KeyIs(TypeName(t.taskType))) == Some(j)
    ensures Tallies(Bump(prev, TypeName(t.taskType)), init + [t])
  {
    var k := TypeName(t.taskType);
    var r := prev[j := TypeCount(k, prev[j].count + 1)];
    assert Bump(prev, k) == r;
    SumCountsUpdate(prev, j, TypeCount(k, prev[j].count + 1));
    OldKeyCounts(prev, init, t, j);
    OldKeyPresent(prev, init, t, j);
    OldKeyDistinct(prev, j, TypeCount(k, prev[j].count + 1));
  }

  /** Replacing an entry by one with the same key keeps the keys distinct. */
  lemma OldKeyDistinct(prev: seq<TypeCount>, j: nat, x: TypeCount)
    requires KeysDistinct(prev)
    requires j < |prev| && prev[j].key == x.key
    ensures KeysDistinct(prev[j := x])
  {
  }

  /** Raising the count under the task's own key keeps every count exact. */
  lemma OldKeyCounts(prev: seq<TypeCount>, init: seq<Task>, t: Task, j: nat)
    requires forall m :: 0 <= m < |prev| ==> prev[m].count == Occurrences(init, prev[m].key) && prev[m].count >= 1
    requires KeysDistinct(prev)
    requires j < |prev| && prev[j].key == TypeName(t.taskType)
    ensures var r := prev[j := TypeCount(TypeName(t.taskType), prev[j].count + 1)];
            forall m :: 0 <= m < |r| ==> r[m].count == Occurrences(init + [t], r[m].key) && r[m].count >= 1
  {
    var ts := init + [t];
    var k := TypeName(t.taskType);
    var r := prev[j := TypeCount(k, prev[j].count + 1)];
    assert ts[..|init|] == init;
    forall m | 0 <= m < |r| ensures r[m].count == Occurrences(ts, r[m].key) && r[m].count >= 1 {
      assert Occurrences(ts, r[m].key) == Occurrences(init, r[m].key) + (if k == r[m].key then 1 else 0);
      if m != j {
        assert r[m] == prev[m] && prev[m].key != k;
      }
    }
  }

  /** Raising a count in place keeps every type name present, the new task's included. */
  lemma OldKeyPresent(prev: seq<TypeCount>, init: seq<Task>, t: Task, j: nat)
    requires forall i :: 0 <= i < |init| ==> HasKey(prev, TypeName(init[i].taskType))
    requires j < |prev| && prev[j].key == TypeName(t.taskType)
    ensures var r := prev[j := TypeCount(TypeName(t.taskType), prev[j].count + 1)];
            forall i :: 0 <= i < |init + [t]| ==> HasKey(r, TypeName((init + [t])[i].taskType))
  {
    var ts := init + [t];
    var k := TypeName(t.taskType);
    var r := prev[j := TypeCount(k, prev[j].count + 1)];
    forall i | 0 <= i < |ts| ensures HasKey(r, TypeName(ts[i].taskType)) {
      if i < |init| {
        assert ts[i] == init[i];
        var m :| 0 <= m < |prev| && prev[m].key == TypeName(init[i].taskType);
        assert r[m].key == prev[m].key;
      } else {
        assert r[j].key == k;
      }
    }
  }

  /** A type name with a positive count occurs in the list. */
  lemma {:induction false} OccurrenceWitness(ts: seq<Task>, k: string)
    requires Occurrences(ts, k) > 0
    ensures exists i :: 0 <= i < |ts| && TypeName(ts[i].taskType) == k
    decreases |ts|
  {
    var init := ts[..|ts| - 1];
    if TypeName(ts[|ts| - 1].taskType) != k {
      OccurrenceWitness(init, k);
      var i :| 0 <= i < |init| && TypeName(init[i].taskType) == k;
      assert ts[i] == init[i];
    }
  }

  function TypeIs(k: string): Task -> bool
  {
    (t: Task) => TypeName(t.taskType) == k
  }

  /** The position of the first task of `ts` whose type name is `k`; `|ts|` when there
      is none. */
  function FirstOccurrence(ts: seq<Task>, k: string): (n: nat)
    ensures n <= |ts|
    ensures n < |ts| ==> TypeName(ts[n].taskType) == k
  {
    match FirstIndex(ts, TypeIs(k))
    case None => |ts|
    case Some(i) => i
  }

  /** No task before the first occurrence has the type name. */
  lemma NoneBeforeFirst(ts: seq<Task>, k: string)
    ensures forall i :: 0 <= i < FirstOccurrence(ts, k) ==> TypeName(ts[i].taskType) != k
  {
    match FirstIndex(ts, TypeIs(k))
    case None =>
      assert forall i :: 0 <= i < |ts| ==> !TypeIs(k)(ts[i]);
    case Some(j) =>
      assert forall i :: 0 <= i < j ==> !TypeIs(k)(ts[i]);
  }

  /** A name occurring among the earlier tasks keeps its first position when one more
      task is counted. */
  lemma OccurrenceKept(init: seq<Task>, t: Task, k: string)
    requires Occurrences(init, k) > 0
    ensures FirstOccurrence(init + [t], k) == FirstOccurrence(init, k) < |init|
  {
    OccurrenceWitness(init, k);
    var ts := init + [t];
    NoneBeforeFirst(init, k);
    NoneBeforeFirst(ts, k);
    var n1, n2 := FirstOccurrence(init, k), FirstOccurrence(ts, k);
    var w :| 0 <= w < |init| && TypeName(init[w].taskType) == k;
    assert ts[w] == init[w];
    assert n1 <= w && n2 <= w;
    assert ts[n1] == init[n1] && ts[n2] == init[n2];
  }

  /** A name absent from the earlier tasks first occurs at the task just counted. */
  lemma OccurrenceNew(init: seq<Task>, t: Task)
    requires forall i :: 0 <= i < |init| ==> TypeName(init[i].taskType) != TypeName(t.taskType)
    ensures FirstOccurrence(init + [t], TypeName(t.taskType)) == |init|
  {
    var ts := init + [t];
    NoneBeforeFirst(ts, TypeName(t.taskType));
    var n := FirstOccurrence(ts, TypeName(t.taskType));
    assert ts[|init|] == t;
    assert forall i :: 0 <= i < |init| ==> ts[i] == init[i];
  }

  /** The keys of a tally appear in the order their type names first occur. */
  ghost predicate InFirstOccurrenceOrder(tally: seq<TypeCount>, ts: seq<Task>)
  {
    forall a, b :: 0 <= a < b < |tally| ==>
      FirstOccurrence(ts, tally[a].key) < FirstOccurrence(ts, tally[b].key)
  }

  /** `tasksByType` lists its type names in the order in which they first occur among the
      day's tasks, so the dots show the first three distinct types of the day. */
  lemma {:induction false} TallyInFirstOccurrenceOrder(ts: seq<Task>)
    ensures InFirstOccurrenceOrder(Tally(ts), ts)
    decreases |ts|
  {
    if |ts| > 0 {
      var init, t := ts[..|ts| - 1], ts[|ts| - 1];
      assert ts == init + [t];
      TallyInFirstOccurrenceOrder(init);
      var prev := Tally(init);
      forall a | 0 <= a < |prev|
        ensures FirstOccurrence(init + [t], prev[a].key) == FirstOccurrence(init, prev[a].key) < |init|
      {
        OccurrenceKept(init, t, prev[a].key);
      }
      OrderKeptOnBump(prev, init, t);
    }
  }

  /** Counting one more task keeps the keys in first-occurrence order: an existing key
      keeps its place, and a new one, first seen at the new task, goes last. */
  lemma OrderKeptOnBump(prev: seq<TypeCount>, init: seq<Task>, t: Task)
    requires InFirstOccurrenceOrder(prev, init)
    requires forall a :: 0 <= a < |prev| ==>
               FirstOccurrence(init + [t], prev[a].key) == FirstOccurrence(init, prev[a].key) < |init|
    requires forall i :: 0 <= i < |init| ==> HasKey(prev, TypeName(init[i].taskType))
    ensures InFirstOccurrenceOrder(Bump(prev, TypeName(t.taskType)), init + [t])
  {
    var k := TypeName(t.taskType);
    if FirstIndex(prev, KeyIs(k)).Some? {
      BumpKeepsKeys(prev, k);
      OrderSameKeys(prev, init, init + [t], Bump(prev, k));
    } else {
      NotYetCounted(prev, init, k);
      OccurrenceNew(init, t);
      BumpAppends(prev, k);
      OrderAppend(prev, init, init + [t], TypeCount(k, 1));
    }
  }

  /** Counting a name the tally already has changes no key. */
  lemma BumpKeepsKeys(prev: seq<TypeCount>, k: string)
    requires FirstIndex(prev, KeyIs(k)).Some?
    ensures |Bump(prev, k)| == |prev|
    ensures forall a :: 0 <= a < |prev| ==> Bump(prev, k)[a].key == prev[a].key
  {
  }

  /** Counting a name the tally lacks appends it with count one. */
  lemma BumpAppends(prev: seq<TypeCount>, k: string)
    requires FirstIndex(prev, KeyIs(k)).None?
    ensures Bump(prev, k) == prev + [TypeCount(k, 1)]
  {
  }

  /** A name without a key in an exact tally occurs nowhere among its tasks. */
  lemma NotYetCounted(prev: seq<TypeCount>, init: seq<Task>, k: string)
    requires forall i :: 0 <= i < |init| ==> HasKey(prev, TypeName(init[i].taskType))
    requires FirstIndex(prev, KeyIs(k)).None?
    ensures forall i :: 0 <= i < |init| ==> TypeName(init[i].taskType) != k
  {
    forall i | 0 <= i < |init| ensures TypeName(init[i].taskType) != k {
      assert HasKey(prev, TypeName(init[i].taskType));
      var m :| 0 <= m < |prev| && prev[m].key == TypeName(init[i].taskType);
      assert !KeyIs(k)(prev[m]);
    }
  }

  /** A tally with the same keys in the same places keeps the order. */
  lemma OrderSameKeys(prev: seq<TypeCount>, init: seq<Task>, ts: seq<Task>, r: seq<TypeCount>)
    requires InFirstOccurrenceOrder(prev, init)
    requires forall a :: 0 <= a < |prev| ==> FirstOccurrence(ts, prev[a].key) == FirstOccurrence(init, prev[a].key)
    requires |r| == |prev| && forall a :: 0 <= a < |prev| ==> r[a].key == prev[a].key
    ensures InFirstOccurrenceOrder(r, ts)
  {
  }

  /** Appending a key first seen after every existing key keeps the order. */
  lemma OrderAppend(prev: seq<TypeCount>, init: seq<Task>, ts: seq<Task>, x: TypeCount)
    requires InFirstOccurrenceOrder(prev, init)
    requires forall a :: 0 <= a < |prev| ==>
               FirstOccurrence(ts, prev[a].key) == FirstOccurrence(init, prev[a].key) < |init|
    requires FirstOccurrence(ts, x.key) == |init|
    ensures InFirstOccurrenceOrder(prev + [x], ts)
  {
    assert forall a :: 0 <= a < |prev| ==> (prev + [x])[a] == prev[a];
  }

  /** The dots of a day cell: the first three entries of `tasksByType`, and none for a
      day without tasks. */
  function DayDots(tasks: seq<Task>, date: DateTime): (r: seq<TypeCount>)
    ensures |r| <= 3
    ensures |r| > 0 <==> |DayTasks(tasks, date)| > 0
    ensures |r| <= |Tally(DayTasks(tasks, date))|
    ensures forall j :: 0 <= j < |r| ==> r[j] == Tally(DayTasks(tasks, date))[j]
  {
    var day := DayTasks(tasks, date);
    if |day| == 0 then []
    else
      var tally := Tally(day);
      assert HasKey(tally, TypeName(day[0].taskType));
      if |tally| <= 3 then tally else tally[..3]
  }

  // ---------------------------------------------------------------- complete / skip

  function IdIsNot(id: string): Task -> bool
  {
    (t: Task) => t.id != id
  }

  /** `handleCompleteTask` / `handleSkipTask`: once the service call resolves, every task
      with the id leaves the local list and the rest keep their order; when it throws,
      the list stays as it was. */
  function RemoveTask(tasks: seq<Task>, id: string, outcome: Result<PlantService.Store>): (r: seq<Task>)
    ensures outcome.Err? ==> r == tasks
    ensures outcome.Ok? ==> forall i :: 0 <= i < |r| ==> r[i].id != id && r[i] in tasks
    ensures outcome.Ok? ==> forall i :: 0 <= i < |tasks| && tasks[i].id != id ==> tasks[i] in r
    ensures |r| <= |tasks|
  {
    if outcome.Ok? then
      KeepComplete(tasks, IdIsNot(id));
      Keep(tasks, IdIsNot(id))
    else tasks
  }

  /** Removal keeps the relative order: removing from two halves and joining equals
      removing from the whole; and a list without the id is left untouched. */
  lemma RemoveTaskOrder(a: seq<Task>, b: seq<Task>, id: string, outcome: Result<PlantService.Store>)
    ensures RemoveTask(a + b, id, outcome) == RemoveTask(a, id, outcome) + RemoveTask(b, id, outcome)
    ensures (forall i :: 0 <= i < |a| ==> a[i].id != id) ==> RemoveTask(a, id, outcome) == a
  {
    if outcome.Ok? {
      KeepAppend(a, b, IdIsNot(id));
      if forall i :: 0 <= i < |a| ==> a[i].id != id {
        KeepAll(a, IdIsNot(id));
      }
    }
  }

  /** The service's `completeTask` and `skipTask` never fail, so the page always drops
      the task; and the selected day's list loses it in the same way. */
  lemma CompleteAlwaysRemoves(s: PlantService.Store, tasks: seq<Task>, id: string, nowIso: string, date: DateTime)
    ensures RemoveTask(tasks, id, PlantService.CompleteTask(s, id, nowIso)) == Keep(tasks, IdIsNot(id))
    ensures RemoveTask(tasks, id, PlantService.SkipTask(s, id, nowIso)) == Keep(tasks, IdIsNot(id))
    ensures DayTasks(RemoveTask(tasks, id, PlantService.CompleteTask(s, id, nowIso)), date)
              == RemoveTask(DayTasks(tasks, date), id, PlantService.CompleteTask(s, id, nowIso))
  {
    KeepCommute(tasks, IdIsNot(id), OnDay(date));
  }

  // ---------------------------------------------------------------- month navigation

  /** `navigateMonth`: `'next'` moves one month forward, any other direction one month
      back, clamping the day to the length of the new month. */
  function NavigateMonth(d: Date, direction: string): (r: Date)
    requires Valid(d)
    ensures Valid(r)
    ensures direction == "next" ==> MonthIndex(r) == MonthIndex(d) + 1
    ensures direction != "next" ==> MonthIndex(r) == MonthIndex(d) - 1
    ensures r.day <= d.day && (d.day <= 28 ==> r.day == d.day)
  {
    AddMonths(d, if direction == "next" then 1 else -1)
  }

  /** Forward then back returns to the same day when the day exists in every month. */
  lemma NavigateBackAndForth(d: Date)
    requires Valid(d) && d.day <= 28
    ensures NavigateMonth(NavigateMonth(d, "next"), "prev") == d
  {
    AddMonthsRoundTrip(d);
  }

  // ---------------------------------------------------------------- reminders

  /** The browser's notification permission. */
  datatype Permission = Granted | Denied | Default

  /** The reminder-related state of the page. */
  datatype ReminderState = ReminderState(tasks: seq<Task>, showModal: bool, selected: Option<Task>)

  /** The state after saving, and the delay of the notification timer if one was set. */
  datatype Saved = Saved(state: ReminderState, timerDelay: Option<int>)

  /** `updatedTask`: the selected task with the chosen reminder time, enabled and not yet
      sent; every other field is kept. */
  function WithReminder(t: Task, reminderIso: string): (r: Task)
    ensures r.reminderTime == Some(reminderIso) && r.reminderEnabled == Some(true) && r.reminderSent == Some(false)
    ensures r.(reminderTime := t.reminderTime, reminderEnabled := t.reminderEnabled, reminderSent := t.reminderSent) == t
  {
    t.(reminderTime := Some(reminderIso), reminderEnabled := Some(true), reminderSent := Some(false))
  }

  /** The permission in force after the request made when it was still undecided. */
  function Effective(permission: Permission, afterRequest: Permission): (p: Permission)
    ensures permission != Default ==> p == permission
    ensures permission == Default ==> p == afterRequest
  {
    if permission == Default then afterRequest else permission
  }

  /** `handleSaveReminder`, with the outcome of persisting the task as a parameter.
      Without a selected task nothing happens. With permission, a successful save replaces
      every task with the selected id by the updated task, arms a timer exactly when the
      reminder lies in the future, and closes the modal; a failed save changes nothing and
      leaves the modal open. Without permission the tasks stay and the modal closes. */
  function SaveReminder(st: ReminderState, permission: Permission, afterRequest: Permission,
                        reminderIso: string, reminderMs: int, nowMs: int, saved: bool): (r: Saved)
    ensures st.selected.None? ==> r == Saved(st, None)
    ensures st.selected.Some? && Effective(permission, afterRequest) == Granted && !saved ==> r == Saved(st, None)
    ensures st.selected.Some? && Effective(permission, afterRequest) != Granted ==>
              && r.state.tasks == st.tasks && !r.state.showModal && r.state.selected.None?
              && r.timerDelay.None?
    ensures st.selected.Some? && Effective(permission, afterRequest) == Granted && saved ==>
              var sel := st.selected.value;
              && |r.state.tasks| == |st.tasks|
              && (forall i :: 0 <= i < |st.tasks| && st.tasks[i].id == sel.id ==>
                    r.state.tasks[i] == WithReminder(sel, reminderIso))
              && (forall i :: 0 <= i < |st.tasks| && st.tasks[i].id != sel.id ==> r.state.tasks[i] == st.tasks[i])
              && !r.state.showModal && r.state.selected.None?
              && (r.timerDelay.Some? <==> reminderMs > nowMs)
              && (r.timerDelay.Some? ==> r.timerDelay.value == reminderMs - nowMs > 0)
  {
    match st.selected
    case None => Saved(st, None)
    case Some(sel) =>
      if Effective(permission, afterRequest) == Granted then
        if !saved then Saved(st, None)
        else
          var delay := reminderMs - nowMs;
          var tasks := ReplaceWhere(st.tasks, PlantService.TaskIdIs(sel.id), WithReminder(sel, reminderIso));
          Saved(ReminderState(tasks, false, None), if delay > 0 then Some(delay) else None)
      else Saved(ReminderState(st.tasks, false, None), None)
  }

  /** Saving the same reminder twice leaves the list as saving it once. */
  lemma SaveReminderIdempotent(st: ReminderState, reminderIso: string, reminderMs: int, nowMs: int)
    requires st.selected.Some?
    ensures var once := SaveReminder(st, Granted, Granted, reminderIso, reminderMs, nowMs, true).state;
            var again := SaveReminder(once.(selected := st.selected, showModal := true), Granted, Granted,
                                      reminderIso, reminderMs, nowMs, true).state;
            again.tasks == once.tasks
  {
  }

  /** The page as written: `PlantService` has no `updateTask`, so the call throws a
      `TypeError` before anything else happens on the granted path, and the handler's
      `catch` takes over. */
  function SaveReminderAsWritten(st: ReminderState, permission: Permission, afterRequest: Permission,
                                 reminderIso: string, reminderMs: int, nowMs: int): (r: Saved)
    ensures Effective(permission, afterRequest) == Granted ==> r == Saved(st, None)
  {
    SaveReminder(st, permission, afterRequest, reminderIso, reminderMs, nowMs, false)
  }

  /** As written, a granted reminder is never stored, never armed, and the modal never
      closes — whereas a successful save does store it on the selected task. */
  lemma ReminderNeverSavedAsWritten(t: Task, reminderIso: string, reminderMs: int, nowMs: int)
    ensures var st := ReminderState([t], true, Some(t));
            && SaveReminderAsWritten(st, Granted, Granted, reminderIso, reminderMs, nowMs).state == st
            && SaveReminder(st, Granted, Granted, reminderIso, reminderMs, nowMs, true).state.tasks
                 == [WithReminder(t, reminderIso)]
            && !SaveReminder(st, Granted, Granted, reminderIso, reminderMs, nowMs, true).state.showModal
  {
  }
}

=== FILE: dates.dfy ===
/** Local calendar dates, as the `Date` objects of the views and services see them. */
module Dates {

  /** A calendar day in local time; `month` is 1-based (January is 1). */
  datatype Date = Date(year: int, month: int, day: int)

  /** A point in time: its local calendar day and the milliseconds since that day's
      midnight. */
  datatype DateTime = DateTime(date: Date, millis: int)

  const MillisPerMinute: int := 60 * 1000
  const MillisPerHour: int := 60 * MillisPerMinute
  const MillisPerDay: int := 24 * MillisPerHour

  /** The Gregorian leap-year rule. */
  predicate IsLeapYear(year: int)
  {
    year % 4 == 0 && (year % 100 != 0 || year % 400 == 0)
  }

  /** The day number of `new Date(year, month, 0)`, the last day of the month. */
  function DaysInMonth(year: int, month: int): (n: int)
    requires 1 <= month <= 12
    ensures 28 <= n <= 31
    ensures month == 2 ==> (n == 29 <==> IsLeapYear(year))
    ensures month in {4, 6, 9, 11} ==> n == 30
    ensures month in {1, 3, 5, 7, 8, 10, 12} ==> n == 31
  {
    if month == 2 then (if IsLeapYear(year) then 29 else 28)
    else if month in {4, 6, 9, 11} then 30
    else 31
  }

  /** A date that names an existing calendar day. */
  predicate Valid(d: Date)
  {
    1 <= d.month <= 12 && 1 <= d.day <= DaysInMonth(d.year, d.month)
  }

  /** Months since the start of year 0: consecutive months have consecutive indices. */
  function MonthIndex(d: Date): int
  {
    d.year * 12 + (d.month - 1)
  }

  /** `isSameDay(a, b)`: same year, month and day, whatever the time of day. */
  predicate SameDay(a: DateTime, b: DateTime)
  {
    a.date == b.date
  }

  /** `addMonths(d, n)`: the same day `n` months later (earlier for negative `n`),
      clamped to the last day of the target month when that month is shorter. */
  function AddMonths(d: Date, n: int): (r: Date)
    requires Valid(d)
    ensures Valid(r)
    ensures MonthIndex(r) == MonthIndex(d) + n
    ensures r.day <= d.day
    ensures d.day <= DaysInMonth(r.year, r.month) ==> r.day == d.day
    ensures d.day > DaysInMonth(r.year, r.month) ==> r.day == DaysInMonth(r.year, r.month)
  {
    var total := MonthIndex(d) + n;
    var year := total / 12;
    var month := total % 12 + 1;
    var last := DaysInMonth(year, month);
    Date(year, month, if d.day <= last then d.day else last)
  }

  /** Month navigation keeps the day when the target month is long enough: going one
      month forward and one back returns to the starting date. */
  lemma {:induction false} AddMonthsRoundTrip(d: Date)
    requires Valid(d) && d.day <= 28
    ensures AddMonths(AddMonths(d, 1), -1) == d
  {
    var next := AddMonths(d, 1);
    var back := AddMonths(next, -1);
    assert MonthIndex(back) == MonthIndex(d);
    assert back.year == d.year && back.month == d.month;
  }

  /** Clamping makes month navigation lossy for late days: 31 January goes forward to
      29 February 2024 and back to 29 January, not to 31 January. */
  lemma AddMonthsClampsLateDays()
    ensures AddMonths(Date(2024, 1, 31), 1) == Date(2024, 2, 29)
    ensures AddMonths(AddMonths(Date(2024, 1, 31), 1), -1) == Date(2024, 1, 29)
  {
    assert IsLeapYear(2024);
  }
}

=== FILE: diagnose_flow.dfy ===
/** The diagnose flow: a prompt, the camera, symptom selection, the analysis call and
    the result, with the cancel, failure and new-diagnosis edges. */
module DiagnoseFlow {
  import opened Outcomes
  import PlantService
  import Environment

  datatype Step = Initial | Camera | Symptoms | Analyzing | Result

  /** The page state: the step, the captured image, the chosen symptoms, the diagnosis
      and the loading flag. */
  datatype Page = Page(
    step: Step,
    image: Option<PlantService.CapturedPhoto>,
    symptoms: seq<string>,
    diagnosis: Option<PlantService.Diagnosis>,
    loading: bool)

  const Start: Page := Page(Initial, None, [], None, false)

  /** The handlers of the page. `Resolved` is the settling of the `diagnosePlant` call
      made when symptoms are chosen. */
  datatype Event =
    | StartDiagnosis
    | ImageCaptured(image: PlantService.CapturedPhoto)
    | CancelCamera
    | SymptomsSelected(symptoms: seq<string>)
    | SkipSymptoms
    | Resolved(outcome: Result<PlantService.Diagnosis>)
    | NewDiagnosis

  /** The events the screen of each step offers. */
  predicate Offered(p: Page, e: Event)
  {
    match e
    case StartDiagnosis => p.step == Initial
    case ImageCaptured(_) => p.step == Camera
    case CancelCamera => p.step == Camera
    case SymptomsSelected(_) => p.step == Symptoms
    case SkipSymptoms => p.step == Symptoms
    case Resolved(_) => p.step == Analyzing
    case NewDiagnosis => p.step == Result
  }

  /** The handlers. Start opens the camera; a capture stores the image and asks for
      symptoms; cancel goes back to the prompt; chosen symptoms are stored while the
      analysis runs; skipping chooses none; the analysis ends on the result or, when it
      fails, back at the prompt (the image and symptoms stay); a new diagnosis clears
      everything but the loading flag. */
  function Next(p: Page, e: Event): (q: Page)
    ensures e.StartDiagnosis? ==> q == p.(step := Camera)
    ensures e.ImageCaptured? ==> q == p.(step := Symptoms, image := Some(e.image))
    ensures e.CancelCamera? ==> q == p.(step := Initial)
    ensures e.SymptomsSelected? ==> q == p.(step := Analyzing, symptoms := e.symptoms, loading := true)
    ensures e.Resolved? && e.outcome.Ok? ==>
              q == p.(step := Result, diagnosis := Some(e.outcome.value), loading := false)
    ensures e.Resolved? && e.outcome.Err? ==> q == p.(step := Initial, loading := false)
    ensures e.NewDiagnosis? ==> q == Start.(loading := p.loading)
    decreases e.SkipSymptoms?
  {
    match e
    case StartDiagnosis => p.(step := Camera)
    case ImageCaptured(image) => p.(step := Symptoms, image := Some(image))
    case CancelCamera => p.(step := Initial)
    case SymptomsSelected(symptoms) => p.(step := Analyzing, symptoms := symptoms, loading := true)
    case SkipSymptoms => Next(p, SymptomsSelected([]))
    case Resolved(outcome) =>
      if outcome.Ok? then p.(step := Result, diagnosis := Some(outcome.value), loading := false)
      else p.(step := Initial, loading := false)
    case NewDiagnosis => Page(Initial, None, [], None, p.loading)
  }

  /** What holds in every reachable state: the loading flag is raised exactly while
      analysing, an image exists from the symptom step through the result, and the
      result step has a diagnosis. */
  predicate Consistent(p: Page)
  {
    && (p.loading <==> p.step == Analyzing)
    && (p.step in {Symptoms, Analyzing, Result} ==> p.image.Some?)
    && (p.step == Result ==> p.diagnosis.Some?)
  }

  /** The flow starts consistent, every offered event keeps it so, and a new diagnosis
      from the result screen is exactly the starting state. */
  lemma NextKeepsConsistent(p: Page, e: Event)
    ensures Consistent(Start)
    ensures Consistent(p) && Offered(p, e) ==> Consistent(Next(p, e))
    ensures Consistent(p) && p.step == Result ==> Next(p, NewDiagnosis) == Start
  {
  }

  /** Skipping is choosing no symptoms, whatever the analysis then returns. */
  lemma SkipIsEmptySelection(p: Page, outcome: Result<PlantService.Diagnosis>)
    ensures Next(p, SkipSymptoms) == Next(p, SymptomsSelected([]))
    ensures Next(Next(p, SkipSymptoms), Resolved(outcome)) == Next(Next(p, SymptomsSelected([])), Resolved(outcome))
    ensures Next(p, SkipSymptoms).symptoms == []
  {
  }

  /** A full pass from the prompt through the camera and the symptoms ends on the result
      screen with the service's diagnosis and the captured image; a failed analysis
      returns to the prompt with the image still held. */
  lemma HappyPath(image: PlantService.CapturedPhoto, symptoms: seq<string>, pick: Environment.Draw)
    ensures var analysing := Next(Next(Next(Start, StartDiagnosis), ImageCaptured(image)), SymptomsSelected(symptoms));
            var done := Next(analysing, Resolved(Ok(PlantService.DiagnosePlant(pick))));
            && analysing.step == Analyzing && analysing.loading
            && done.step == Result && !done.loading && done.image == Some(image) && done.symptoms == symptoms
            && done.diagnosis.Some? && done.diagnosis.value.issue in {"Overwatering", "Nutrient deficiency"}
    ensures forall f: Failure ::
              var failed := Next(Next(Next(Next(Start, StartDiagnosis), ImageCaptured(image)),
                                      SymptomsSelected(symptoms)), Resolved(Err(f)));
              failed.step == Initial && failed.image == Some(image) && !failed.loading
  {
  }
}

=== FILE: environment.dfy ===
/** What the services take from the JavaScript runtime: `Math.random()` draws. The
    clock and fresh ids are plain parameters of the operations that read them. */
module Environment {

  /** One value of `Math.random()`: a real in [0, 1). */
  type Draw = r: real | 0.0 <= r < 1.0

  /** `Math.floor(Math.random() * n)`: a uniform pick among `0 .. n-1`, and 0 when
      `n` is 0 (which the callers then use to index an empty list). */
  function Scaled(u: Draw, n: nat): (k: int)
    ensures n > 0 ==> 0 <= k < n
    ensures n == 0 ==> k == 0
  {
    ScaledBelow(u, n);
    (u * n as real).Floor
  }

  lemma ScaledBelow(u: Draw, n: nat)
    ensures 0.0 <= u * n as real
    ensures n > 0 ==> u * n as real < n as real
  {
    if n > 0 {
      assert u * n as real < 1.0 * n as real;
    }
  }
}

=== FILE: health.dfy ===
/** Health-score views: the three-way classification of a plant card, the gallery
    filter with its counts, and the dashboard's overall health. */
module Health {
  import opened Outcomes
  import opened Lists
  import opened Records

  /** The three health bands of a score. */
  datatype HealthClass = Success | Warning | Error

  /** The thresholds of `getHealthColor` / `getHealthBgColor`. */
  function Classify(score: int): HealthClass
  {
    if score >= 80 then Success else if score >= 60 then Warning else Error
  }

  function ClassName(c: HealthClass): string
  {
    match c
    case Success => "success"
    case Warning => "warning"
    case Error => "error"
  }

  /** Ordering of the bands, worst first. */
  function Rank(c: HealthClass): int
  {
    match c
    case Error => 0
    case Warning => 1
    case Success => 2
  }

  /** `getHealthColor`: the text colour class of a score. */
  function HealthColor(score: int): (c: string)
    ensures c == "text-semantic-" + ClassName(Classify(score))
  {
    if score >= 80 then "text-semantic-success"
    else if score >= 60 then "text-semantic-warning"
    else "text-semantic-error"
  }

  /** `getHealthBgColor`: the background class of a score. */
  function HealthBgColor(score: int): (c: string)
    ensures c == "bg-semantic-" + ClassName(Classify(score)) + "/10"
  {
    if score >= 80 then "bg-semantic-success/10"
    else if score >= 60 then "bg-semantic-warning/10"
    else "bg-semantic-error/10"
  }

  /** The bands: 80 and above is success, 60 up to 80 warning, below 60 error; the
      classification is monotone in the score. */
  lemma ClassifyBands(score: int, other: int)
    ensures Classify(score) == Success <==> score >= 80
    ensures Classify(score) == Warning <==> 60 <= score < 80
    ensures Classify(score) == Error <==> score < 60
    ensures score <= other ==> Rank(Classify(score)) <= Rank(Classify(other))
  {
  }

  /** The text and background classes always name the same band. */
  lemma ColorsAgree(score: int)
    ensures HealthColor(score)[14..] == ClassName(Classify(score))
    ensures HealthBgColor(score)[12..|HealthBgColor(score)| - 3] == ClassName(Classify(score))
  {
    var name := ClassName(Classify(score));
    assert HealthColor(score) == "text-semantic-" + name;
    assert HealthBgColor(score) == "bg-semantic-" + name + "/10";
  }

  predicate IsHealthy(p: Plant)
  {
    p.healthScore >= 80
  }

  predicate NeedsAttention(p: Plant)
  {
    p.healthScore < 60
  }

  /** The gallery's `filteredPlants`: never longer than the garden, and every plant a
      band filter shows lies in that band. */
  function FilterPlants(plants: seq<Plant>, filterBy: string): (r: seq<Plant>)
    ensures |r| <= |plants|
    ensures forall i :: 0 <= i < |r| ==> r[i] in plants
    ensures filterBy == "healthy" ==> forall i :: 0 <= i < |r| ==> r[i].healthScore >= 80
    ensures filterBy == "needs-attention" ==> forall i :: 0 <= i < |r| ==> r[i].healthScore < 60
  {
    if filterBy == "all" then plants
    else if filterBy == "healthy" then Keep(plants, IsHealthy)
    else if filterBy == "needs-attention" then Keep(plants, NeedsAttention)
    else plants
  }

  /** `'all'` and any unrecognised filter keep the list as it is; `'healthy'` keeps
      exactly the plants scoring 80 or more and `'needs-attention'` exactly those below
      60, each in the original order. */
  lemma FilterPlantsMeaning(plants: seq<Plant>, filterBy: string, p: Plant)
    ensures filterBy !in {"healthy", "needs-attention"} ==> FilterPlants(plants, filterBy) == plants
    ensures filterBy == "healthy" ==> (p in FilterPlants(plants, filterBy) <==> p in plants && p.healthScore >= 80)
    ensures filterBy == "needs-attention" ==>
              (p in FilterPlants(plants, filterBy) <==> p in plants && p.healthScore < 60)
    ensures filterBy in {"healthy", "needs-attention"} && 60 <= p.healthScore < 80 ==>
              p !in FilterPlants(plants, filterBy)
  {
    if filterBy == "healthy" || filterBy == "needs-attention" {
      var r := FilterPlants(plants, filterBy);
      KeepComplete(plants, IsHealthy);
      KeepComplete(plants, NeedsAttention);
      if p in plants {
        var i :| 0 <= i < |plants| && plants[i] == p;
      }
      if p in r {
        var i :| 0 <= i < |r| && r[i] == p;
      }
    }
  }

  /** The counts on the filter bar. */
  datatype FilterCounts = FilterCounts(all: nat, healthy: nat, needsCare: nat)

  /** The filter-bar counts equal the sizes of the lists the filters show; the healthy
      and needs-care groups are disjoint, so together they never exceed the total. */
  function Counts(plants: seq<Plant>): (c: FilterCounts)
    ensures c.all == |FilterPlants(plants, "all")|
    ensures c.healthy == |FilterPlants(plants, "healthy")|
    ensures c.needsCare == |FilterPlants(plants, "needs-attention")|
    ensures c.healthy + c.needsCare <= c.all
  {
    KeepDisjointCount(plants, IsHealthy, NeedsAttention);
    FilterCounts(|plants|, |Keep(plants, IsHealthy)|, |Keep(plants, NeedsAttention)|)
  }

  // ---------------------------------------------------------------- overall health

  function SumScores(plants: seq<Plant>): int
  {
    if |plants| == 0 then 0 else plants[0].healthScore + SumScores(plants[1..])
  }

  /** `Math.round(num / den)` for a positive `den`: the nearest integer, halves rounded up. */
  function RoundDiv(num: int, den: int): (r: int)
    requires den > 0
    ensures 2 * r * den <= 2 * num + den < 2 * (r + 1) * den
  {
    (2 * num + den) / (2 * den)
  }

  /** `getOverallHealth`: 0 for an empty garden, otherwise the rounded mean score. */
  function OverallHealth(plants: seq<Plant>): (r: int)
    ensures |plants| == 0 ==> r == 0
    ensures |plants| > 0 ==> 2 * r * |plants| <= 2 * SumScores(plants) + |plants| < 2 * (r + 1) * |plants|
  {
    if |plants| == 0 then 0 else RoundDiv(SumScores(plants), |plants|)
  }

  /** Every score lies within `[lo, hi]`. */
  ghost predicate ScoresWithin(plants: seq<Plant>, lo: int, hi: int)
  {
    forall i :: 0 <= i < |plants| ==> lo <= plants[i].healthScore <= hi
  }

  lemma {:induction false} SumBounds(plants: seq<Plant>, lo: int, hi: int)
    requires ScoresWithin(plants, lo, hi)
    ensures |plants| * lo <= SumScores(plants) <= |plants| * hi
    decreases |plants|
  {
    if |plants| > 0 {
      SumBounds(plants[1..], lo, hi);
    }
  }

  /** The overall health of a non-empty garden lies between the lowest and the highest
      plant score. */
  lemma {:induction false} OverallHealthBetween(plants: seq<Plant>, lo: int, hi: int)
    requires |plants| > 0
    requires ScoresWithin(plants, lo, hi)
    ensures lo <= OverallHealth(plants) <= hi
  {
    SumBounds(plants, lo, hi);
    RoundBetween(SumScores(plants), |plants|, lo, hi);
  }

  /** Rounding a mean keeps it within the bounds of the values averaged. */
  lemma RoundBetween(sum: int, n: int, lo: int, hi: int)
    requires n > 0
    requires n * lo <= sum <= n * hi
    ensures lo <= RoundDiv(sum, n) <= hi
  {
    var r := RoundDiv(sum, n);
    var m := 2 * n;
    assert r * m <= 2 * sum + n < (r + 1) * m;
    assert 2 * sum + n < (hi + 1) * m;
    assert lo * m <= 2 * sum + n;
    LessCancel(r, hi + 1, m);
    LessCancel(lo, r + 1, m);
  }

  lemma LessCancel(a: int, b: int, n: int)
    requires n > 0
    requires a * n < b * n
    ensures a < b
  {
    assert (b - a) * n == b * n - a * n;
  }

  /** What the dashboard shows once its data has loaded. */
  datatype DashboardView = Loading | Failed(message: string) | EmptyGarden | Garden

  /** The dashboard's branches: the skeleton while loading, then the error, then the
      empty-garden prompt exactly when there are no plants. */
  function Dashboard(loading: bool, error: Option<string>, plants: seq<Plant>): (v: DashboardView)
    ensures v == Loading <==> loading
    ensures v.Failed? <==> !loading && Truthy(error)
    ensures v.Failed? ==> v.message == error.value
    ensures v == EmptyGarden <==> !loading && !Truthy(error) && |plants| == 0
    ensures v == Garden <==> !loading && !Truthy(error) && |plants| > 0
  {
    if loading then Loading
    else if Truthy(error) then Failed(error.value)
    else if |plants| == 0 then EmptyGarden
    else Garden
  }
}

=== FILE: journal_service.dfy ===
/** The in-memory journal store (`JournalService`): the journal entries and its own copy
    of the plant list, which it only reads. */
module JournalService {
  import opened Outcomes
  import opened Lists
  import opened Records

  datatype Store = Store(entries: seq<JournalEntry>, plants: seq<Plant>)

  /** An entry as the service returns it, with the nickname of its plant. */
  datatype ListedEntry = ListedEntry(entry: JournalEntry, plantName: string)

  function EntryIdIs(id: string): JournalEntry -> bool
  {
    (e: JournalEntry) => e.id == id
  }

  function PlantIdIs(id: string): Plant -> bool
  {
    (p: Plant) => p.id == id
  }

  predicate HasEntry(s: Store, id: string)
  {
    exists i :: 0 <= i < |s.entries| && s.entries[i].id == id
  }

  /** `this.plants.find(p => p.id === plantId)?.nickname || 'Unknown Plant'`. */
  function PlantName(plants: seq<Plant>, plantId: string): (name: string)
    ensures name != ""
    ensures (forall i :: 0 <= i < |plants| ==> plants[i].id != plantId) ==> name == "Unknown Plant"
    ensures name == "Unknown Plant" ||
              exists i :: 0 <= i < |plants| && plants[i].id == plantId && plants[i].nickname == name
    ensures FirstIndex(plants, PlantIdIs(plantId)).Some? ==>
              var first := plants[FirstIndex(plants, PlantIdIs(plantId)).value];
              name == (if first.nickname != "" then first.nickname else "Unknown Plant")
  {
    match FirstIndex(plants, PlantIdIs(plantId))
    case None => "Unknown Plant"
    case Some(i) => if plants[i].nickname != "" then plants[i].nickname else "Unknown Plant"
  }

  function Listed(plants: seq<Plant>, e: JournalEntry): ListedEntry
  {
    ListedEntry(e, PlantName(plants, e.plantId))
  }

  function ListedDate(l: ListedEntry): int
  {
    l.entry.date
  }

  /** Every entry with its plant name, in store order. */
  function ListAll(s: Store): (r: seq<ListedEntry>)
    ensures |r| == |s.entries|
    ensures forall i :: 0 <= i < |r| ==> r[i] == Listed(s.plants, s.entries[i])
  {
    seq(|s.entries|, i requires 0 <= i < |s.entries| => Listed(s.plants, s.entries[i]))
  }

  /** `getAll`: every entry with its plant name, newest first. */
  function GetAll(s: Store): (r: seq<ListedEntry>)
    ensures |r| == |s.entries|
    ensures SortedDesc(r, ListedDate)
    ensures multiset(r) == multiset(ListAll(s))
    ensures forall i :: 0 <= i < |r| ==> r[i].entry in s.entries
    ensures forall i :: 0 <= i < |r| ==> r[i].plantName == PlantName(s.plants, r[i].entry.plantId)
    ensures forall i :: 0 <= i < |s.entries| ==> Listed(s.plants, s.entries[i]) in r
  {
    var listed := ListAll(s);
    var r := SortDesc(listed, ListedDate);
    SameMembers(r, listed);
    assert forall i :: 0 <= i < |r| ==> r[i].entry in s.entries by {
      forall i | 0 <= i < |r| ensures r[i].entry in s.entries {
        var k :| 0 <= k < |listed| && listed[k] == r[i];
      }
    }
    r
  }

  /** Every listed entry of a plant is shown under the nickname of the first plant record
      with that id, or under "Unknown Plant" when that nickname is empty or no plant has
      the id. */
  lemma GetAllNames(s: Store, k: nat, plantId: string)
    requires k < |s.plants| && s.plants[k].id == plantId
    requires forall m :: 0 <= m < k ==> s.plants[m].id != plantId
    ensures forall i :: 0 <= i < |GetAll(s)| && GetAll(s)[i].entry.plantId == plantId ==>
              GetAll(s)[i].plantName == OrElse(Some(s.plants[k].nickname), "Unknown Plant")
    ensures (forall m :: 0 <= m < |s.plants| ==> s.plants[m].id != "") ==>
              forall i :: 0 <= i < |GetAll(s)| && GetAll(s)[i].entry.plantId == "" ==>
                GetAll(s)[i].plantName == "Unknown Plant"
  {
    FirstPlantName(s.plants, k, plantId);
    if forall m :: 0 <= m < |s.plants| ==> s.plants[m].id != "" {
      assert PlantName(s.plants, "") == "Unknown Plant";
    }
  }

  /** The name looked up for an id is that of the first plant carrying it. */
  lemma FirstPlantName(plants: seq<Plant>, k: nat, plantId: string)
    requires k < |plants| && plants[k].id == plantId
    requires forall m :: 0 <= m < k ==> plants[m].id != plantId
    ensures PlantName(plants, plantId) == OrElse(Some(plants[k].nickname), "Unknown Plant")
  {
    assert PlantIdIs(plantId)(plants[k]);
    var j := FirstIndex(plants, PlantIdIs(plantId)).value;
    assert !(j < k);
    assert !(k < j);
  }

  /** `getById`: the first entry with the id; "Journal entry not found" otherwise. */
  function GetById(s: Store, id: string): (r: Result<ListedEntry>)
    ensures r.Err? <==> !HasEntry(s, id)
    ensures r.Err? ==> r.failure == NotFound("Journal entry not found")
    ensures r.Ok? ==> r.value.entry.id == id && r.value.entry in s.entries
    ensures r.Ok? ==> forall j ::
              (0 <= j < |s.entries| && s.entries[j].id == id && forall m :: 0 <= m < j ==> s.entries[m].id != id) ==>
              r.value.entry == s.entries[j]
    ensures r.Ok? ==> r.value.plantName == PlantName(s.plants, r.value.entry.plantId)
  {
    match FirstIndex(s.entries, EntryIdIs(id))
    case None => Err(NotFound("Journal entry not found"))
    case Some(i) => Ok(Listed(s.plants, s.entries[i]))
  }

  /** The `entryData` argument of `create`; absent optional fields are `None`. */
  datatype EntryInput = EntryInput(
    plantId: string, entryType: EntryType, title: string,
    notes: Option<string>, photos: Option<seq<string>>, measurements: Option<Measurements>)

  const NoMeasurements: Measurements := Measurements(None, None, None)

  datatype Created = Created(store: Store, entry: ListedEntry)

  /** `create`: appends one entry dated `nowMs` under `newId`, copying plant, type and
      title and defaulting notes to `''`, photos to `[]` and measurements to `{}`. */
  function Create(s: Store, input: EntryInput, newId: string, nowMs: int): (r: Created)
    ensures r.store.entries == s.entries + [r.entry.entry]
    ensures r.store.plants == s.plants
    ensures r.entry.plantName == PlantName(s.plants, input.plantId)
    ensures var e := r.entry.entry;
            && e.id == newId && e.date == nowMs
            && e.plantId == input.plantId && e.entryType == input.entryType && e.title == input.title
            && (Truthy(input.notes) ==> e.notes == input.notes.value)
            && (!Truthy(input.notes) ==> e.notes == "")
            && (input.photos.None? ==> e.photos == [])
            && (input.photos.Some? ==> e.photos == input.photos.value)
            && (input.measurements.None? ==> e.measurements == NoMeasurements)
            && (input.measurements.Some? ==> e.measurements == input.measurements.value)
  {
    var e := JournalEntry(
      newId, input.plantId, input.entryType, input.title, OrElse(input.notes, ""), nowMs,
      if input.photos.Some? then input.photos.value else [],
      if input.measurements.Some? then input.measurements.value else NoMeasurements);
    Created(Store(s.entries + [e], s.plants), Listed(s.plants, e))
  }

  datatype Updated = Updated(store: Store, entry: ListedEntry)

  /** `update`: shallow-merges `data` into the first entry with the id, leaving every
      other entry unchanged; "Journal entry not found" otherwise. */
  function Update(s: Store, id: string, d: EntryPatch): (r: Result<Updated>)
    ensures r.Err? <==> !HasEntry(s, id)
    ensures r.Err? ==> r.failure == NotFound("Journal entry not found")
    ensures r.Ok? ==> FirstIndex(s.entries, EntryIdIs(id)).Some?
    ensures r.Ok? ==>
              var i := FirstIndex(s.entries, EntryIdIs(id)).value;
              && |r.value.store.entries| == |s.entries|
              && r.value.store.entries[i] == MergeEntry(s.entries[i], d)
              && r.value.entry.entry == r.value.store.entries[i]
              && (forall j :: 0 <= j < |s.entries| && j != i ==> r.value.store.entries[j] == s.entries[j])
    ensures r.Ok? ==> r.value.store.plants == s.plants
    ensures r.Ok? ==> r.value.entry.plantName == PlantName(s.plants, r.value.entry.entry.plantId)
  {
    match FirstIndex(s.entries, EntryIdIs(id))
    case None => Err(NotFound("Journal entry not found"))
    case Some(i) =>
      var merged := MergeEntry(s.entries[i], d);
      Ok(Updated(s.(entries := s.entries[i := merged]), Listed(s.plants, merged)))
  }

  /** `delete`: removes the first entry with the id, keeping the others in order;
      "Journal entry not found" otherwise. */
  function Delete(s: Store, id: string): (r: Result<Store>)
    ensures r.Err? <==> !HasEntry(s, id)
    ensures r.Err? ==> r.failure == NotFound("Journal entry not found")
    ensures r.Ok? ==> FirstIndex(s.entries, EntryIdIs(id)).Some?
    ensures r.Ok? ==>
              var i := FirstIndex(s.entries, EntryIdIs(id)).value;
              && |r.value.entries| == |s.entries| - 1
              && (forall j :: 0 <= j < i ==> r.value.entries[j] == s.entries[j])
              && (forall j :: i <= j < |r.value.entries| ==> r.value.entries[j] == s.entries[j + 1])
              && multiset(r.value.entries) + multiset{s.entries[i]} == multiset(s.entries)
    ensures r.Ok? ==> r.value.plants == s.plants
  {
    match FirstIndex(s.entries, EntryIdIs(id))
    case None => Err(NotFound("Journal entry not found"))
    case Some(i) => Ok(s.(entries := RemoveAt(s.entries, i)))
  }

  /** `getPlants`: a copy of the service's plant list. */
  function GetPlants(s: Store): (r: seq<Plant>)
    ensures |r| == |s.plants|
    ensures forall i :: 0 <= i < |r| ==> r[i] == s.plants[i]
  {
    s.plants
  }

  /** No journal operation changes the plant list, so `getPlants` answers the same
      before and after any of them. */
  lemma PlantsUntouched(s: Store, id: string, input: EntryInput, newId: string, nowMs: int, d: EntryPatch)
    ensures GetPlants(Create(s, input, newId, nowMs).store) == GetPlants(s)
    ensures Update(s, id, d).Ok? ==> GetPlants(Update(s, id, d).value.store) == GetPlants(s)
    ensures Delete(s, id).Ok? ==> GetPlants(Delete(s, id).value) == GetPlants(s)
  {
  }

  /** When every stored entry is strictly older than the clock reading of `create`, the
      new entry, with its plant name, heads the newest-first listing. (An older entry
      dated the same millisecond would stay ahead of it, the sort being stable.) */
  lemma NewEntryHeadsListing(s: Store, input: EntryInput, newId: string, nowMs: int)
    requires forall i :: 0 <= i < |s.entries| ==> s.entries[i].date < nowMs
    ensures |GetAll(Create(s, input, newId, nowMs).store)| > 0
    ensures GetAll(Create(s, input, newId, nowMs).store)[0] == Create(s, input, newId, nowMs).entry
  {
    var c := Create(s, input, newId, nowMs);
    NewestEntryListedFirst(s, input, newId, nowMs);
    var head := GetAll(c.store)[0];
    assert head.entry in s.entries + [c.entry.entry];
    assert head.entry !in s.entries;
  }

  /** A newly created entry dated no earlier than every stored one puts its date at the
      head of the listing. */
  lemma {:induction false} NewestEntryListedFirst(s: Store, input: EntryInput, newId: string, nowMs: int)
    requires forall i :: 0 <= i < |s.entries| ==> s.entries[i].date <= nowMs
    ensures |GetAll(Create(s, input, newId, nowMs).store)| > 0
    ensures GetAll(Create(s, input, newId, nowMs).store)[0].entry.date == nowMs
  {
    var c := Create(s, input, newId, nowMs);
    assert c.store.entries[|s.entries|] == c.entry.entry;
    HeadIsNewest(c.store, |s.entries|, nowMs);
  }

  /** When every entry is dated at most `nowMs` and one is dated exactly `nowMs`, the
      newest-first list starts with that date. */
  lemma HeadIsNewest(s: Store, k: nat, nowMs: int)
    requires forall i :: 0 <= i < |s.entries| ==> s.entries[i].date <= nowMs
    requires k < |s.entries| && s.entries[k].date == nowMs
    ensures |GetAll(s)| > 0 && GetAll(s)[0].entry.date == nowMs
  {
    var all := GetAll(s);
    assert Listed(s.plants, s.entries[k]) in all;
    var j :| 0 <= j < |all| && all[j] == Listed(s.plants, s.entries[k]);
    assert all[0].entry.date >= all[j].entry.date;
    assert all[0].entry in s.entries;
  }
}

=== FILE: journal_view.dfy ===
/** The journal screen over its loaded entries: adding, deleting, filtering by plant and
    counting per plant, and the add-entry form with its validation. */
module JournalView {
  import opened Outcomes
  import opened Lists
  import opened Records
  import JournalService

  // ---------------------------------------------------------------- the entry list

  function EntryIdIsNot(id: string): JournalService.ListedEntry -> bool
  {
    (e: JournalService.ListedEntry) => e.entry.id != id
  }

  /** `handleAddEntry`: the created entry goes in front of the list; when `create`
      throws, the list is unchanged. */
  function AddEntry(entries: seq<JournalService.ListedEntry>, outcome: Result<JournalService.ListedEntry>)
    : (r: seq<JournalService.ListedEntry>)
    ensures outcome.Err? ==> r == entries
    ensures outcome.Ok? ==> |r| == |entries| + 1 && r[0] == outcome.value && r[1..] == entries
  {
    if outcome.Ok? then [outcome.value] + entries else entries
  }

  /** `handleDeleteEntry`: nothing happens unless the user confirms; after a successful
      `delete` every entry with the id leaves the list, the rest in order; a failed
      `delete` changes nothing. */
  function DeleteEntry(entries: seq<JournalService.ListedEntry>, id: string, confirmed: bool,
                       outcome: Result<JournalService.Store>): (r: seq<JournalService.ListedEntry>)
    ensures !confirmed || outcome.Err? ==> r == entries
    ensures confirmed && outcome.Ok? ==> forall i :: 0 <= i < |r| ==> r[i].entry.id != id && r[i] in entries
    ensures confirmed && outcome.Ok? ==>
              forall i :: 0 <= i < |entries| && entries[i].entry.id != id ==> entries[i] in r
  {
    if confirmed && outcome.Ok? then
      KeepComplete(entries, EntryIdIsNot(id));
      Keep(entries, EntryIdIsNot(id))
    else entries
  }

  function Shown(filterPlant: string): JournalService.ListedEntry -> bool
  {
    (e: JournalService.ListedEntry) => filterPlant == "all" || e.entry.plantId == filterPlant
  }

  /** `filteredEntries`: everything under `'all'`, otherwise exactly the entries of the
      chosen plant, in list order. */
  function FilterEntries(entries: seq<JournalService.ListedEntry>, filterPlant: string)
    : (r: seq<JournalService.ListedEntry>)
    ensures filterPlant == "all" ==> r == entries
    ensures filterPlant != "all" ==>
              forall i :: 0 <= i < |r| ==> r[i].entry.plantId == filterPlant && r[i] in entries
    ensures filterPlant != "all" ==>
              forall i :: 0 <= i < |entries| && entries[i].entry.plantId == filterPlant ==> entries[i] in r
  {
    if filterPlant == "all" then
      KeepAll(entries, Shown(filterPlant));
      Keep(entries, Shown(filterPlant))
    else
      KeepComplete(entries, Shown(filterPlant));
      Keep(entries, Shown(filterPlant))
  }

  /** The number shown next to a plant in the filter menu: its entries in the list. */
  function PlantEntryCount(entries: seq<JournalService.ListedEntry>, plantId: string): nat
  {
    if |entries| == 0 then 0
    else (if entries[0].entry.plantId == plantId then 1 else 0) + PlantEntryCount(entries[1..], plantId)
  }

  /** A plant's count is the length of the list its filter shows (for any id other than
      the reserved `'all'`). */
  lemma {:induction false} CountMatchesFilter(entries: seq<JournalService.ListedEntry>, plantId: string)
    requires plantId != "all"
    ensures PlantEntryCount(entries, plantId) == |FilterEntries(entries, plantId)|
    decreases |entries|
  {
    if |entries| > 0 {
      CountMatchesFilter(entries[1..], plantId);
    }
  }

  /** A new entry is listed first under its own plant's filter, and it raises that
      plant's count by one and no other plant's. */
  lemma AddedEntryCounted(entries: seq<JournalService.ListedEntry>, e: JournalService.ListedEntry, other: string)
    requires e.entry.plantId != "all"
    ensures FilterEntries(AddEntry(entries, Ok(e)), e.entry.plantId)[0] == e
    ensures PlantEntryCount(AddEntry(entries, Ok(e)), e.entry.plantId) == PlantEntryCount(entries, e.entry.plantId) + 1
    ensures other != e.entry.plantId ==>
              PlantEntryCount(AddEntry(entries, Ok(e)), other) == PlantEntryCount(entries, other)
  {
  }

  /** After a confirmed, successful delete no entry with the id is left, and no plant's
      count has grown. */
  lemma {:induction false} DeleteNeverGrowsCounts(entries: seq<JournalService.ListedEntry>, id: string,
                                                  outcome: Result<JournalService.Store>, plantId: string)
    ensures PlantEntryCount(DeleteEntry(entries, id, true, outcome), plantId) <= PlantEntryCount(entries, plantId)
    ensures outcome.Ok? ==>
              forall i :: 0 <= i < |DeleteEntry(entries, id, true, outcome)| ==>
                DeleteEntry(entries, id, true, outcome)[i].entry.id != id
    decreases |entries|
  {
    if outcome.Ok? && |entries| > 0 {
      DeleteNeverGrowsCounts(entries[1..], id, outcome, plantId);
      var rest := DeleteEntry(entries[1..], id, true, outcome);
      if entries[0].entry.id != id {
        assert DeleteEntry(entries, id, true, outcome) == [entries[0]] + rest;
        assert ([entries[0]] + rest)[1..] == rest;
      } else {
        assert DeleteEntry(entries, id, true, outcome) == rest;
      }
    }
  }

  // ---------------------------------------------------------------- the add-entry form

  /** The `id` of each entry-type button. */
  function EntryTypeId(t: EntryType): (id: string)
    ensures id in {"note", "milestone", "problem", "harvest", "photo"}
  {
    match t
    case Note => "note"
    case Milestone => "milestone"
    case Problem => "problem"
    case Harvest => "harvest"
    case PhotoUpdate => "photo"
  }

  /** The five buttons carry five different ids. */
  lemma EntryTypeIdInjective(a: EntryType, b: EntryType)
    ensures EntryTypeId(a) == EntryTypeId(b) ==> a == b
  {
  }

  /** The add-entry form's fields. */
  datatype JournalForm = JournalForm(
    plantId: string, entryType: EntryType, title: string, notes: string,
    photos: seq<string>, measurements: Measurements)

  /** The form when opened and after each successful submit: no plant, a general note,
      every text field empty. */
  const InitialForm: JournalForm :=
    JournalForm("", Note, "", "", [], Measurements(Some(""), Some(""), Some("")))

  /** Picking an entry-type button changes the type and nothing else. */
  function SelectType(form: JournalForm, t: EntryType): (r: JournalForm)
    ensures r.entryType == t
    ensures r.(entryType := form.entryType) == form
  {
    form.(entryType := t)
  }

  /** What a submit hands to `onSave` (if anything) and the form afterwards. */
  datatype Submitted = Submitted(saved: Option<JournalForm>, form: JournalForm)

  /** `handleSubmit`: rejected, with the form kept, when the plant or the title is empty
      (an all-blank title still passes, as nothing is trimmed); otherwise the form data
      goes to `onSave` and the form is reset. */
  function Submit(form: JournalForm): (r: Submitted)
    ensures r.saved.None? <==> form.plantId == "" || form.title == ""
    ensures r.saved.None? ==> r.form == form
    ensures r.saved.Some? ==> r.saved.value == form && r.form == InitialForm
  {
    if form.plantId == "" || form.title == "" then Submitted(None, form)
    else Submitted(Some(form), InitialForm)
  }

  /** The fields of a submitted form as the service's `create` reads them. */
  function ToInput(form: JournalForm): JournalService.EntryInput
  {
    JournalService.EntryInput(form.plantId, form.entryType, form.title, Some(form.notes),
                              Some(form.photos), Some(form.measurements))
  }

  /** A submit right after a successful one is rejected, so one filled form yields one
      entry; and every entry the form creates has a plant and a non-empty title. */
  lemma SubmitOnce(form: JournalForm, s: JournalService.Store, newId: string, nowMs: int)
    ensures Submit(form).saved.Some? ==> Submit(Submit(form).form).saved.None?
    ensures Submit(form).saved.Some? ==>
              var e := JournalService.Create(s, ToInput(Submit(form).saved.value), newId, nowMs).entry.entry;
              e.plantId != "" && e.title != "" && e.entryType == form.entryType
  {
  }
}

=== FILE: lists.dfy ===
/** The array operations the source leans on (`filter`, `findIndex`, `splice`, `map`,
    `sort`), written once over any element type and proved once. */
module Lists {
  import opened Outcomes

  /** `s.filter(p)`: the elements satisfying `p`, in their original order. */
  function Keep<T>(s: seq<T>, p: T -> bool): (r: seq<T>)
    ensures |r| <= |s|
    ensures forall i :: 0 <= i < |r| ==> r[i] in s && p(r[i])
    decreases |s|
  {
    if |s| == 0 then []
    else (if p(s[0]) then [s[0]] else []) + Keep(s[1..], p)
  }

  /** Nothing that satisfies `p` is dropped by the filter. */
  lemma {:induction false} KeepComplete<T>(s: seq<T>, p: T -> bool)
    ensures forall i :: 0 <= i < |s| && p(s[i]) ==> s[i] in Keep(s, p)
    decreases |s|
  {
    if |s| > 0 {
      KeepComplete(s[1..], p);
      forall i | 0 <= i < |s| && p(s[i])
        ensures s[i] in Keep(s, p)
      {
        if i > 0 {
          assert s[i] == s[1..][i - 1];
        }
      }
    }
  }

  /** Filtering distributes over concatenation: the relative order of the kept
      elements is exactly their order in the input. */
  lemma {:induction false} KeepAppend<T>(a: seq<T>, b: seq<T>, p: T -> bool)
    ensures Keep(a + b, p) == Keep(a, p) + Keep(b, p)
    decreases |a|
  {
    if |a| == 0 {
      assert a + b == b;
    } else {
      assert (a + b)[1..] == a[1..] + b;
      KeepAppend(a[1..], b, p);
    }
  }

  /** A filter that keeps everything is the identity. */
  lemma {:induction false} KeepAll<T>(s: seq<T>, p: T -> bool)
    requires forall i :: 0 <= i < |s| ==> p(s[i])
    ensures Keep(s, p) == s
    decreases |s|
  {
    if |s| > 0 {
      KeepAll(s[1..], p);
    }
  }

  /** A filter that keeps nothing yields the empty list. */
  lemma {:induction false} KeepNone<T>(s: seq<T>, p: T -> bool)
    requires forall i :: 0 <= i < |s| ==> !p(s[i])
    ensures Keep(s, p) == []
    decreases |s|
  {
    if |s| > 0 {
      KeepNone(s[1..], p);
    }
  }

  /** A filter that rejects a prefix and a suffix and accepts the part between them
      yields exactly that part. */
  lemma {:induction false} KeepBetween<T>(s: seq<T>, lo: nat, hi: nat, p: T -> bool)
    requires lo <= hi <= |s|
    requires forall i :: 0 <= i < lo ==> !p(s[i])
    requires forall i :: lo <= i < hi ==> p(s[i])
    requires forall i :: hi <= i < |s| ==> !p(s[i])
    ensures Keep(s, p) == s[lo..hi]
    decreases |s|
  {
    if hi == 0 {
      KeepNone(s, p);
    } else {
      var lo' := if lo == 0 then 0 else lo - 1;
      KeepBetween(s[1..], lo', hi - 1, p);
      if lo == 0 {
        assert s[0..hi] == [s[0]] + s[1..][0..hi - 1];
      } else {
        assert s[lo..hi] == s[1..][lo'..hi - 1];
      }
    }
  }

  /** Two filters applied one after the other give the same result in either order. */
  lemma {:induction false} KeepCommute<T>(s: seq<T>, p: T -> bool, q: T -> bool)
    ensures Keep(Keep(s, p), q) == Keep(Keep(s, q), p)
    decreases |s|
  {
    if |s| > 0 {
      KeepCommute(s[1..], p, q);
      var head := if p(s[0]) then [s[0]] else [];
      KeepAppend(head, Keep(s[1..], p), q);
      var head2 := if q(s[0]) then [s[0]] else [];
      KeepAppend(head2, Keep(s[1..], q), p);
      if p(s[0]) {
        assert Keep(head, q) == if q(s[0]) then [s[0]] else [] by {
          assert head[1..] == [];
        }
      }
      if q(s[0]) {
        assert Keep(head2, p) == if p(s[0]) then [s[0]] else [] by {
          assert head2[1..] == [];
        }
      }
    }
  }

  /** Two filters whose predicates exclude each other select disjoint parts of the input,
      so together they count at most the whole input. */
  lemma {:induction false} KeepDisjointCount<T>(s: seq<T>, p: T -> bool, q: T -> bool)
    requires forall i :: 0 <= i < |s| ==> !(p(s[i]) && q(s[i]))
    ensures |Keep(s, p)| + |Keep(s, q)| <= |s|
    decreases |s|
  {
    if |s| > 0 {
      KeepDisjointCount(s[1..], p, q);
    }
  }

  /** `s.findIndex(p)`: the first position whose element satisfies `p`, `None` for -1. */
  function FirstIndex<T>(s: seq<T>, p: T -> bool): (r: Option<nat>)
    ensures r.Some? ==> r.value < |s| && p(s[r.value])
    ensures r.Some? ==> forall j :: 0 <= j < r.value ==> !p(s[j])
    ensures r.None? <==> forall j :: 0 <= j < |s| ==> !p(s[j])
    decreases |s|
  {
    if |s| == 0 then None
    else if p(s[0]) then Some(0)
    else match FirstIndex(s[1..], p)
      case None => None
      case Some(i) => Some(i + 1)
  }

  /** `s.splice(i, 1)`: the sequence without its element at `i`. */
  function RemoveAt<T>(s: seq<T>, i: nat): (r: seq<T>)
    requires i < |s|
    ensures |r| == |s| - 1
    ensures forall j :: 0 <= j < i ==> r[j] == s[j]
    ensures forall j :: i <= j < |r| ==> r[j] == s[j + 1]
    ensures multiset(r) + multiset{s[i]} == multiset(s)
  {
    assert s == s[..i] + [s[i]] + s[i + 1..];
    s[..i] + s[i + 1..]
  }

  /** `s.map(t => p(t) ? x : t)`: every element satisfying `p` replaced by `x`. */
  function ReplaceWhere<T>(s: seq<T>, p: T -> bool, x: T): (r: seq<T>)
    ensures |r| == |s|
    ensures forall i :: 0 <= i < |s| && p(s[i]) ==> r[i] == x
    ensures forall i :: 0 <= i < |s| && !p(s[i]) ==> r[i] == s[i]
  {
    seq(|s|, i requires 0 <= i < |s| => if p(s[i]) then x else s[i])
  }

  /** Two sequences with the same multiset hold the same elements. */
  lemma SameMembers<T>(a: seq<T>, b: seq<T>)
    requires multiset(a) == multiset(b)
    ensures forall i :: 0 <= i < |a| ==> a[i] in b
    ensures forall i :: 0 <= i < |b| ==> b[i] in a
  {
    forall i | 0 <= i < |a| ensures a[i] in b {
      assert a[i] in multiset(a);
    }
    forall i | 0 <= i < |b| ensures b[i] in a {
      assert b[i] in multiset(b);
    }
  }

  /** Non-increasing order of `key`. */
  ghost predicate SortedDesc<T>(s: seq<T>, key: T -> int)
  {
    forall i, j :: 0 <= i < j < |s| ==> key(s[i]) >= key(s[j])
  }

  /** Places `x` in front of the first element whose key does not exceed its own. */
  function InsertDesc<T>(x: T, s: seq<T>, key: T -> int): (r: seq<T>)
    requires SortedDesc(s, key)
    ensures |r| == |s| + 1
    ensures SortedDesc(r, key)
    ensures multiset(r) == multiset(s) + multiset{x}
    decreases |s|
  {
    if |s| == 0 then [x]
    else if key(s[0]) <= key(x) then [x] + s
    else
      var rest := InsertDesc(x, s[1..], key);
      assert s == [s[0]] + s[1..];
      BoundedAfterInsert(rest, s[1..], x, key, key(s[0]));
      [s[0]] + rest
  }

  /** Every element of a sequence holding the elements of `t` and `x` has a key at most
      `b` when those do. */
  lemma BoundedAfterInsert<T>(r: seq<T>, t: seq<T>, x: T, key: T -> int, b: int)
    requires multiset(r) == multiset(t) + multiset{x}
    requires forall i :: 0 <= i < |t| ==> key(t[i]) <= b
    requires key(x) <= b
    ensures forall i :: 0 <= i < |r| ==> key(r[i]) <= b
  {
    forall i | 0 <= i < |r|
      ensures key(r[i]) <= b
    {
      assert r[i] in multiset(r);
      if r[i] != x {
        assert r[i] in multiset(t);
        assert r[i] in t;
      }
    }
  }

  /** `s.sort((a, b) => key(b) - key(a))`: a permutation of `s` in non-increasing key order.
      Each element is inserted in front of its equals, so equal keys keep their input
      order as the engine's stable sort does; the contract does not state this. */
  function SortDesc<T>(s: seq<T>, key: T -> int): (r: seq<T>)
    ensures |r| == |s|
    ensures SortedDesc(r, key)
    ensures multiset(r) == multiset(s)
    decreases |s|
  {
    if |s| == 0 then []
    else
      assert s == [s[0]] + s[1..];
      InsertDesc(s[0], SortDesc(s[1..], key), key)
  }
}

=== FILE: outcomes.dfy ===
/** Failure-carrying results and the JavaScript `||` default idiom used throughout the
    services and views. */
module Outcomes {

  /** An optional value: `undefined` / `null` in the source is `None`. */
  datatype Option<+T> = None | Some(value: T)

  /** The error conditions the services and views raise. */
  datatype Failure =
    | NotFound(message: string)      // an id absent from a store
    | OperationFailed(message: string)  // any other thrown error, caught at the UI boundary

  /** The outcome of an awaited service call: a value, or the error it threw. */
  datatype Result<+T> = Ok(value: T) | Err(failure: Failure)

  /** JavaScript truthiness of an optional string: `undefined` and `''` are falsy. */
  predicate Truthy(s: Option<string>)
  {
    s.Some? && s.value != ""
  }

  /** `s || fallback` for a possibly-undefined string. */
  function OrElse(s: Option<string>, fallback: string): (r: string)
    ensures Truthy(s) ==> r == s.value
    ensures !Truthy(s) ==> r == fallback
  {
    if Truthy(s) then s.value else fallback
  }
}

=== FILE: plant_detail_view.dfy ===
/** The plant detail screen: loading the plant named by the route, choosing between the
    skeleton, the not-found card and the detail, and the local update after watering. */
module PlantDetailView {
  import opened Outcomes
  import opened Lists
  import opened Records
  import PlantService

  /** The page state: loading flag, error message and the loaded detail record. */
  datatype Page = Page(loading: bool, error: Option<string>, detail: Option<PlantService.PlantDetail>)

  /** Before any load: the skeleton, no error, no plant. */
  const Opened: Page := Page(true, None, None)

  /** The load effect: nothing at all for a falsy route id; otherwise the awaited
      `getById` outcome is stored (its message, or a fixed one, on failure) and loading
      ends. */
  function Load(id: Option<string>, outcome: Result<PlantService.PlantDetail>): (p: Page)
    ensures !Truthy(id) ==> p == Opened
    ensures Truthy(id) ==> !p.loading
    ensures Truthy(id) && outcome.Ok? ==> p.error.None? && p.detail == Some(outcome.value)
    ensures Truthy(id) && outcome.Err? ==>
              p.detail.None? && p.error.Some? && p.error.value != ""
              && (outcome.failure.message != "" ==> p.error.value == outcome.failure.message)
  {
    if !Truthy(id) then Opened
    else match outcome
      case Ok(d) => Page(false, None, Some(d))
      case Err(f) => Page(false, Some(OrElse(Some(f.message), "Failed to load plant details")), None)
  }

  /** What the page renders. */
  datatype View = Skeleton | Missing(message: string) | Detail(detail: PlantService.PlantDetail)

  /** The skeleton while loading; then the not-found card when there is an error or no
      plant, showing the error or a fixed sentence; otherwise the detail. */
  function Render(p: Page): (v: View)
    ensures v.Skeleton? <==> p.loading
    ensures v.Missing? <==> !p.loading && (Truthy(p.error) || p.detail.None?)
    ensures v.Missing? && Truthy(p.error) ==> v.message == p.error.value
    ensures v.Detail? ==> p.detail == Some(v.detail)
  {
    if p.loading then Skeleton
    else if Truthy(p.error) || p.detail.None? then Missing(OrElse(p.error, "This plant does not exist"))
    else Detail(p.detail.value)
  }

  /** A falsy route id leaves the skeleton up for good; an unknown id ends on the
      not-found card with the service's "Plant not found"; a known one shows its plant. */
  lemma LoadOutcomes(s: PlantService.Store, id: string, nowMs: int, draws: PlantService.StatDraws)
    ensures Render(Load(Some(""), PlantService.GetById(s, id, nowMs, draws))) == Skeleton
    ensures Render(Load(None, PlantService.GetById(s, id, nowMs, draws))) == Skeleton
    ensures id != "" && !PlantService.HasPlant(s, id) ==>
              Render(Load(Some(id), PlantService.GetById(s, id, nowMs, draws))) == Missing("Plant not found")
    ensures id != "" && PlantService.HasPlant(s, id) ==>
              var v := Render(Load(Some(id), PlantService.GetById(s, id, nowMs, draws)));
              v.Detail? && v.detail.plant.id == id && v.detail.plant in s.plants
  {
  }

  /** `handleWaterPlant`, offered only on the detail view: after a successful
      `waterPlant` the local plant gets the new timestamp and a water level 30 higher,
      capped at 100, and nothing else changes; after a failure the page is unchanged. */
  function HandleWater(p: Page, outcome: Result<PlantService.Updated>, nowIso: string): (q: Page)
    requires p.detail.Some?
    ensures outcome.Err? ==> q == p
    ensures outcome.Ok? ==>
              var before := p.detail.value.plant;
              && q.detail.Some? && q.loading == p.loading && q.error == p.error
              && q.detail.value.plant.waterLevel == PlantService.WateredLevel(before.waterLevel)
              && q.detail.value.plant.lastWatered == Some(nowIso)
              && q.detail.value.plant.(waterLevel := before.waterLevel, lastWatered := before.lastWatered) == before
              && q.detail.value.(plant := before) == p.detail.value
  {
    if outcome.Err? then p
    else
      var d := p.detail.value;
      var watered := d.plant.(lastWatered := Some(nowIso),
                              waterLevel := PlantService.WateredLevel(d.plant.waterLevel));
      p.(detail := Some(d.(plant := watered)))
  }

  /** When the page shows the store's plant, a successful watering leaves the page's copy
      equal to the store's updated plant (given the same clock reading), and in range. */
  lemma WaterKeepsPageInSync(s: PlantService.Store, id: string, p: Page, nowIso: string)
    requires p.detail.Some? && PlantService.HasPlant(s, id)
    requires p.detail.value.plant == s.plants[FirstIndex(s.plants, PlantService.PlantIdIs(id)).value]
    requires p.detail.value.plant.waterLevel <= 100
    ensures PlantService.WaterPlant(s, id, nowIso).Ok?
    ensures var q := HandleWater(p, PlantService.WaterPlant(s, id, nowIso), nowIso);
            && q.detail.value.plant == PlantService.WaterPlant(s, id, nowIso).value.plant
            && p.detail.value.plant.waterLevel <= q.detail.value.plant.waterLevel <= 100
  {
  }
}

=== FILE: plant_service.dfy ===
/** The in-memory plant store (`PlantService`): plants, species and tasks held in
    sequences, with get/create/update/delete, watering, task generation and the mock
    identification and diagnosis stubs. Each operation takes the store and returns the
    new store with its result; the artificial delays are not modelled. */
module PlantService {
  import opened Outcomes
  import opened Lists
  import opened Dates
  import opened Records
  import opened Environment

  /** The service's arrays. The weather snapshot is read-only and not modelled. */
  datatype Store = Store(plants: seq<Plant>, species: seq<Species>, tasks: seq<Task>)

  /** Matches a plant by id (`p => p.id === id`). */
  function PlantIdIs(id: string): Plant -> bool
  {
    (p: Plant) => p.id == id
  }

  /** Matches a species by id. */
  function SpeciesIdIs(id: string): Species -> bool
  {
    (s: Species) => s.id == id
  }

  /** Matches a task by id. */
  function TaskIdIs(id: string): Task -> bool
  {
    (t: Task) => t.id == id
  }

  predicate HasPlant(s: Store, id: string)
  {
    exists i :: 0 <= i < |s.plants| && s.plants[i].id == id
  }

  /** No two stored plants share an id. Timestamp ids do not guarantee it. */
  ghost predicate IdsUnique(plants: seq<Plant>)
  {
    forall i, j :: 0 <= i < j < |plants| ==> plants[i].id != plants[j].id
  }

  /** `this.species.find(s => s.id === plant.speciesId)`. */
  function SpeciesOf(species: seq<Species>, speciesId: string): (r: Option<Species>)
    ensures r.Some? ==> r.value in species && r.value.id == speciesId
    ensures r.None? <==> forall i :: 0 <= i < |species| ==> species[i].id != speciesId
    ensures forall i ::
              (0 <= i < |species| && species[i].id == speciesId && forall m :: 0 <= m < i ==> species[m].id != speciesId) ==>
              r == Some(species[i])
  {
    match FirstIndex(species, SpeciesIdIs(speciesId))
    case None => None
    case Some(i) => Some(species[i])
  }

  /** Whole days since planting, rounded down (`daysOld`). */
  function DaysOld(nowMs: int, plantedDate: int): (n: int)
    ensures n * MillisPerDay <= nowMs - plantedDate < (n + 1) * MillisPerDay
  {
    (nowMs - plantedDate) / MillisPerDay
  }

  // ---------------------------------------------------------------- listing

  /** A plant as the list operations return it: with its resolved species and age. */
  datatype ListedPlant = ListedPlant(plant: Plant, species: Option<Species>, daysOld: int)

  /** `getAll`: every plant, in store order, decorated with species and age. */
  function GetAll(s: Store, nowMs: int): (r: seq<ListedPlant>)
    ensures |r| == |s.plants|
    ensures forall i :: 0 <= i < |r| ==> r[i].plant == s.plants[i]
    ensures forall i :: 0 <= i < |r| && r[i].species.Some? ==>
              r[i].species.value in s.species && r[i].species.value.id == s.plants[i].speciesId
    ensures forall i :: 0 <= i < |r| ==>
              r[i].species == SpeciesOf(s.species, s.plants[i].speciesId)
              && r[i].daysOld == DaysOld(nowMs, s.plants[i].plantedDate)
  {
    seq(|s.plants|, i requires 0 <= i < |s.plants| =>
      ListedPlant(s.plants[i], SpeciesOf(s.species, s.plants[i].speciesId),
                  DaysOld(nowMs, s.plants[i].plantedDate)))
  }

  // ---------------------------------------------------------------- getById

  datatype CareAction = Watered | Fertilized

  /** One line of a plant's care history. */
  datatype CareEvent = CareEvent(action: CareAction, date: Option<string>)

  /** The randomized statistics of the detail view; `healthTrend` is shown as `+n`. */
  datatype Stats = Stats(totalWaterings: int, growthRate: int, healthTrend: int, journalEntries: int)

  /** The four `Math.random()` draws behind `Stats`. */
  datatype StatDraws = StatDraws(waterings: Draw, growth: Draw, trend: Draw, entries: Draw)

  /** The detail record `getById` returns. */
  datatype PlantDetail = PlantDetail(
    plant: Plant, species: Option<Species>, daysOld: int,
    careHistory: seq<CareEvent>, stats: Stats)

  /** The care history: always a watering line, then a fertilizing line exactly when
      `lastFertilized` is set (truthy). */
  function CareHistory(p: Plant): (h: seq<CareEvent>)
    ensures 1 <= |h| <= 2
    ensures h[0] == CareEvent(Watered, p.lastWatered)
    ensures |h| == 2 <==> Truthy(p.lastFertilized)
    ensures |h| == 2 ==> h[1] == CareEvent(Fertilized, p.lastFertilized)
    ensures (exists i :: 0 <= i < |h| && h[i].action == Fertilized) <==> Truthy(p.lastFertilized)
  {
    [CareEvent(Watered, p.lastWatered)]
      + (if Truthy(p.lastFertilized) then [CareEvent(Fertilized, p.lastFertilized)] else [])
  }

  /** The statistics, each `Math.floor(Math.random() * k) + base`. */
  function MakeStats(d: StatDraws): (r: Stats)
    ensures 5 <= r.totalWaterings <= 24
    ensures 5 <= r.growthRate <= 19
    ensures 1 <= r.healthTrend <= 10
    ensures 2 <= r.journalEntries <= 9
  {
    Stats(Scaled(d.waterings, 20) + 5, Scaled(d.growth, 15) + 5,
          Scaled(d.trend, 10) + 1, Scaled(d.entries, 8) + 2)
  }

  /** `getById`: the first plant with the id, decorated; "Plant not found" otherwise. */
  function GetById(s: Store, id: string, nowMs: int, draws: StatDraws): (r: Result<PlantDetail>)
    ensures r.Err? <==> !HasPlant(s, id)
    ensures r.Err? ==> r.failure == NotFound("Plant not found")
    ensures r.Ok? ==> r.value.plant.id == id && r.value.plant in s.plants
    ensures r.Ok? ==> forall j ::
              (0 <= j < |s.plants| && s.plants[j].id == id && forall m :: 0 <= m < j ==> s.plants[m].id != id) ==>
              r.value.plant == s.plants[j]
    ensures r.Ok? ==> r.value.daysOld == DaysOld(nowMs, r.value.plant.plantedDate)
    ensures r.Ok? ==> r.value.stats == MakeStats(draws)
    ensures r.Ok? ==> r.value.species == SpeciesOf(s.species, r.value.plant.speciesId)
    ensures r.Ok? ==> r.value.careHistory == CareHistory(r.value.plant)
  {
    match FirstIndex(s.plants, PlantIdIs(id))
    case None => Err(NotFound("Plant not found"))
    case Some(i) =>
      var p := s.plants[i];
      Ok(PlantDetail(p, SpeciesOf(s.species, p.speciesId), DaysOld(nowMs, p.plantedDate),
                     CareHistory(p), MakeStats(draws)))
  }

  // ---------------------------------------------------------------- create

  /** The photo object the capture step produces; only its preview URL is stored. */
  datatype CapturedPhoto = CapturedPhoto(preview: string)

  /** The `plantData` argument of `create`: the setup form plus species and photo.
      Absent optional fields are `None`. */
  datatype PlantInput = PlantInput(
    species: Species, nickname: string, location: Option<string>, plantedDate: int,
    notes: Option<string>, photo: Option<CapturedPhoto>)

  /** The four `Math.random()` draws behind a new plant's gauges. */
  datatype GaugeDraws = GaugeDraws(health: Draw, water: Draw, light: Draw, temperature: Draw)

  /** The gauges of a newly created plant lie in their documented ranges. */
  predicate FreshGauges(p: Plant)
  {
    && 80 <= p.healthScore <= 99
    && 70 <= p.waterLevel <= 99
    && 75 <= p.lightLevel <= 99
    && 20 <= p.temperature <= 25
  }

  /** The plant record `create` builds. `newId` and `photoId` are the two separate
      `Date.now().toString()` readings for the plant and its photo, and `nowIso` the
      capture time of the photo. */
  function NewPlant(input: PlantInput, newId: string, photoId: string, nowIso: string, draws: GaugeDraws)
    : (p: Plant)
    ensures p.id == newId && p.userId == "user-1"
    ensures p.speciesId == input.species.id && p.nickname == input.nickname
    ensures p.plantedDate == input.plantedDate && p.healthStatus == "healthy"
    ensures Truthy(input.location) ==> p.location == input.location.value
    ensures !Truthy(input.location) ==> p.location == "Indoor"
    ensures Truthy(input.notes) ==> p.notes == input.notes.value
    ensures !Truthy(input.notes) ==> p.notes == ""
    ensures FreshGauges(p)
    ensures p.lastWatered.None? && p.lastFertilized.None?
    ensures input.photo.None? ==> p.photos == []
    ensures input.photo.Some? ==>
              p.photos == [Photo(photoId, input.photo.value.preview, nowIso)]
  {
    Plant(
      newId, "user-1", input.species.id, input.nickname,
      OrElse(input.location, "Indoor"), input.plantedDate, "healthy",
      Scaled(draws.health, 20) + 80, Scaled(draws.water, 30) + 70,
      Scaled(draws.light, 25) + 75, Scaled(draws.temperature, 6) + 20,
      None, None,
      if input.photo.Some? then [Photo(photoId, input.photo.value.preview, nowIso)] else [],
      OrElse(input.notes, ""))
  }

  datatype Created = Created(store: Store, plant: Plant)

  /** `create`: appends exactly one new plant and returns it; never fails. */
  function Create(s: Store, input: PlantInput, newId: string, photoId: string, nowIso: string,
                  draws: GaugeDraws): (r: Created)
    ensures r.store.plants == s.plants + [r.plant]
    ensures r.store.species == s.species && r.store.tasks == s.tasks
    ensures r.plant == NewPlant(input, newId, photoId, nowIso, draws)
  {
    var p := NewPlant(input, newId, photoId, nowIso, draws);
    Created(Store(s.plants + [p], s.species, s.tasks), p)
  }

  /** Creating a plant under an id no stored plant has and then fetching that id yields
      the created record. */
  lemma {:induction false} CreateThenGet(s: Store, input: PlantInput, newId: string, photoId: string, nowIso: string,
                                         draws: GaugeDraws, nowMs: int, stats: StatDraws)
    requires !HasPlant(s, newId)
    ensures GetById(Create(s, input, newId, photoId, nowIso, draws).store, newId, nowMs, stats).Ok?
    ensures GetById(Create(s, input, newId, photoId, nowIso, draws).store, newId, nowMs, stats).value.plant
            == Create(s, input, newId, photoId, nowIso, draws).plant
  {
    var c := Create(s, input, newId, photoId, nowIso, draws);
    assert forall j :: 0 <= j < |s.plants| ==> c.store.plants[j] == s.plants[j];
    assert c.store.plants[|s.plants|].id == newId;
  }

  // ---------------------------------------------------------------- update / delete / water

  datatype Updated = Updated(store: Store, plant: Plant)

  /** `update`: shallow-merges `data` into the first plant with the id, leaving every
      other plant and the list length unchanged; "Plant not found" otherwise. */
  function Update(s: Store, id: string, d: PlantPatch): (r: Result<Updated>)
    ensures r.Err? <==> !HasPlant(s, id)
    ensures r.Err? ==> r.failure == NotFound("Plant not found")
    ensures r.Ok? ==> FirstIndex(s.plants, PlantIdIs(id)).Some?
    ensures r.Ok? ==>
              var i := FirstIndex(s.plants, PlantIdIs(id)).value;
              && |r.value.store.plants| == |s.plants|
              && r.value.store.plants[i] == MergePlant(s.plants[i], d)
              && r.value.plant == r.value.store.plants[i]
              && (forall j :: 0 <= j < |s.plants| && j != i ==> r.value.store.plants[j] == s.plants[j])
    ensures r.Ok? ==> r.value.store.species == s.species && r.value.store.tasks == s.tasks
  {
    match FirstIndex(s.plants, PlantIdIs(id))
    case None => Err(NotFound("Plant not found"))
    case Some(i) =>
      var merged := MergePlant(s.plants[i], d);
      Ok(Updated(s.(plants := s.plants[i := merged]), merged))
  }

  /** `delete`: removes the first plant with the id, keeping the others in order;
      "Plant not found" otherwise. */
  function Delete(s: Store, id: string): (r: Result<Store>)
    ensures r.Err? <==> !HasPlant(s, id)
    ensures r.Err? ==> r.failure == NotFound("Plant not found")
    ensures r.Ok? ==> FirstIndex(s.plants, PlantIdIs(id)).Some?
    ensures r.Ok? ==>
              var i := FirstIndex(s.plants, PlantIdIs(id)).value;
              && |r.value.plants| == |s.plants| - 1
              && (forall j :: 0 <= j < i ==> r.value.plants[j] == s.plants[j])
              && (forall j :: i <= j < |r.value.plants| ==> r.value.plants[j] == s.plants[j + 1])
              && multiset(r.value.plants) + multiset{s.plants[i]} == multiset(s.plants)
    ensures r.Ok? ==> r.value.species == s.species && r.value.tasks == s.tasks
  {
    match FirstIndex(s.plants, PlantIdIs(id))
    case None => Err(NotFound("Plant not found"))
    case Some(i) => Ok(s.(plants := RemoveAt(s.plants, i)))
  }

  /** With unique ids, a deleted plant can no longer be fetched. */
  lemma DeleteThenGetFails(s: Store, id: string, nowMs: int, draws: StatDraws)
    requires IdsUnique(s.plants)
    requires Delete(s, id).Ok?
    ensures GetById(Delete(s, id).value, id, nowMs, draws) == Err(NotFound("Plant not found"))
  {
  }

  /** Timestamp ids can collide: with two plants created in the same millisecond,
      deleting the id removes only the first, and the id still resolves. */
  lemma DeleteWithCollidingIds(p: Plant, q: Plant, nowMs: int, draws: StatDraws)
    requires p.id == q.id
    ensures Delete(Store([p, q], [], []), p.id) == Ok(Store([q], [], []))
    ensures GetById(Store([q], [], []), p.id, nowMs, draws).Ok?
  {
    assert FirstIndex([p, q], PlantIdIs(p.id)) == Some(0);
    assert RemoveAt([p, q], 0) == [q];
    assert HasPlant(Store([q], [], []), p.id) by {
      assert Store([q], [], []).plants[0].id == p.id;
    }
  }

  /** The water level after a watering: 30 more, capped at 100. */
  function WateredLevel(level: int): (r: int)
    ensures r <= 100
    ensures level <= 100 ==> level <= r
    ensures level <= 70 ==> r == level + 30
    ensures level >= 70 ==> r == 100
  {
    if level + 30 < 100 then level + 30 else 100
  }

  /** `waterPlant`: sets `lastWatered` and raises `waterLevel` of the first plant with the
      id; no other plant changes. "Plant not found" otherwise. */
  function WaterPlant(s: Store, id: string, nowIso: string): (r: Result<Updated>)
    ensures r.Err? <==> !HasPlant(s, id)
    ensures r.Err? ==> r.failure == NotFound("Plant not found")
    ensures r.Ok? ==> FirstIndex(s.plants, PlantIdIs(id)).Some?
    ensures r.Ok? ==>
              var i := FirstIndex(s.plants, PlantIdIs(id)).value;
              && |r.value.store.plants| == |s.plants|
              && r.value.plant == r.value.store.plants[i]
              && r.value.plant.id == id
              && r.value.plant.waterLevel == WateredLevel(s.plants[i].waterLevel)
              && r.value.plant.lastWatered == Some(nowIso)
              && r.value.plant.(waterLevel := s.plants[i].waterLevel, lastWatered := s.plants[i].lastWatered)
                 == s.plants[i]
              && (forall j :: 0 <= j < |s.plants| && j != i ==> r.value.store.plants[j] == s.plants[j])
    ensures r.Ok? ==> r.value.store.species == s.species && r.value.store.tasks == s.tasks
  {
    match FirstIndex(s.plants, PlantIdIs(id))
    case None => Err(NotFound("Plant not found"))
    case Some(i) =>
      var p := s.plants[i];
      var watered := p.(lastWatered := Some(nowIso), waterLevel := WateredLevel(p.waterLevel));
      Ok(Updated(s.(plants := s.plants[i := watered]), watered))
  }

  /** All water levels at most 100, as every created plant has. */
  ghost predicate WaterLevelsCapped(s: Store)
  {
    forall i :: 0 <= i < |s.plants| ==> s.plants[i].waterLevel <= 100
  }

  /** Creating and watering keep every water level at or below 100. */
  lemma WaterKeepsLevelsCapped(s: Store, id: string, nowIso: string,
                                input: PlantInput, newId: string, photoId: string, draws: GaugeDraws)
    requires WaterLevelsCapped(s)
    ensures WaterPlant(s, id, nowIso).Ok? ==> WaterLevelsCapped(WaterPlant(s, id, nowIso).value.store)
    ensures WaterLevelsCapped(Create(s, input, newId, photoId, nowIso, draws).store)
  {
  }

  // ---------------------------------------------------------------- tasks

  /** The `titles` table of `getTaskTitle`, keyed by type name. */
  function TitleTable(name: string): (title: Option<string>)
    ensures title.Some? <==> IsCareName(name)
  {
    if name == "water" then Some("Water plant")
    else if name == "fertilize" then Some("Apply fertilizer")
    else if name == "prune" then Some("Prune dead leaves")
    else if name == "repot" then Some("Check if repotting needed")
    else None
  }

  /** `getTaskTitle`: the fixed title of each care kind, "Care task" for any other. */
  function TaskTitle(t: TaskType): (title: string)
    ensures IsCareType(t) <==> title != "Care task"
  {
    match t
    case Water => "Water plant"
    case Fertilize => "Apply fertilizer"
    case Prune => "Prune dead leaves"
    case Repot => "Check if repotting needed"
    case OtherType(_) => "Care task"
  }

  /** The title is the table's entry for the task's type name, or "Care task" when the
      table has none. */
  lemma TaskTitleFromTable(t: TaskType)
    ensures TaskTitle(t) == OrElse(TitleTable(TypeName(t)), "Care task")
  {
  }

  /** Distinct care kinds have distinct titles, so a title identifies its kind. */
  lemma TaskTitleInjective(a: TaskType, b: TaskType)
    requires IsCareType(a) && IsCareType(b) && TaskTitle(a) == TaskTitle(b)
    ensures a == b
  {
  }

  /** `completeTask`: stamps the first task with the id with a completion time. It
      resolves to `true` whether or not the id exists and never fails. */
  function CompleteTask(s: Store, taskId: string, nowIso: string): (r: Result<Store>)
    ensures r.Ok?
    ensures r.value.plants == s.plants && r.value.species == s.species
    ensures |r.value.tasks| == |s.tasks|
    ensures FirstIndex(s.tasks, TaskIdIs(taskId)).None? ==> r.value.tasks == s.tasks
    ensures FirstIndex(s.tasks, TaskIdIs(taskId)).Some? ==>
              var i := FirstIndex(s.tasks, TaskIdIs(taskId)).value;
              && r.value.tasks[i] == s.tasks[i].(completedDate := Some(nowIso))
              && (forall j :: 0 <= j < |s.tasks| && j != i ==> r.value.tasks[j] == s.tasks[j])
  {
    match FirstIndex(s.tasks, TaskIdIs(taskId))
    case None => Ok(s)
    case Some(i) => Ok(s.(tasks := s.tasks[i := s.tasks[i].(completedDate := Some(nowIso))]))
  }

  /** `skipTask` is `completeTask`: skipping is recorded as completion. */
  function SkipTask(s: Store, taskId: string, nowIso: string): (r: Result<Store>)
    ensures r.Ok? && r.value.plants == s.plants && r.value.species == s.species
    ensures |r.value.tasks| == |s.tasks|
    ensures FirstIndex(s.tasks, TaskIdIs(taskId)).None? ==> r.value.tasks == s.tasks
    ensures FirstIndex(s.tasks, TaskIdIs(taskId)).Some? ==>
              var i := FirstIndex(s.tasks, TaskIdIs(taskId)).value;
              && r.value.tasks[i].completedDate == Some(nowIso)
              && r.value.tasks[i].(completedDate := s.tasks[i].completedDate) == s.tasks[i]
              && (forall j :: 0 <= j < |s.tasks| && j != i ==> r.value.tasks[j] == s.tasks[j])
  {
    CompleteTask(s, taskId, nowIso)
  }

  /** How long ago something happened, in the largest unit below the next threshold. */
  datatype Elapsed = MinutesAgo(minutes: int) | HoursAgo(hours: int) | DaysAgo(days: int)

  /** `getTimeAgo`: under an hour in minutes, under a day in hours, otherwise in days,
      each rounded down. */
  function TimeAgo(nowMs: int, thenMs: int): (r: Elapsed)
    ensures r.MinutesAgo? ==>
              && r.minutes < 60
              && r.minutes * MillisPerMinute <= nowMs - thenMs < (r.minutes + 1) * MillisPerMinute
    ensures r.HoursAgo? ==>
              && 1 <= r.hours < 24
              && r.hours * MillisPerHour <= nowMs - thenMs < (r.hours + 1) * MillisPerHour
    ensures r.DaysAgo? ==>
              && 1 <= r.days
              && r.days * MillisPerDay <= nowMs - thenMs < (r.days + 1) * MillisPerDay
    ensures r.MinutesAgo? <==> nowMs - thenMs < MillisPerHour
    ensures r.DaysAgo? <==> nowMs - thenMs >= MillisPerDay
  {
    var diff := nowMs - thenMs;
    var minutes := diff / MillisPerMinute;
    var hours := diff / MillisPerHour;
    var days := diff / MillisPerDay;
    if minutes < 60 then MinutesAgo(minutes)
    else if hours < 24 then HoursAgo(hours)
    else DaysAgo(days)
  }

  /** A task scheduled in the future is reported as a negative number of minutes ago. */
  lemma FutureIsNegativeMinutes(nowMs: int, thenMs: int)
    requires thenMs > nowMs
    ensures TimeAgo(nowMs, thenMs).MinutesAgo?
    ensures TimeAgo(nowMs, thenMs).minutes < 0
  {
  }

  /** The five `Math.random()` draws of one calendar day, and the id of its task.
      The last four are used only when the day gets a task. */
  datatype DayDraw = DayDraw(chance: Draw, plantPick: Draw, typePick: Draw, weather: Draw, id: string)

  const CareTypes: seq<TaskType> := [Water, Fertilize, Prune, Repot]

  /** The task a selected day gets: a random plant (or the literal `'plant-1'` when there
      is none, or its id is empty), a random care kind and its title. */
  function DayTask(plants: seq<Plant>, day: Date, d: DayDraw): (t: Task)
    ensures IsCareType(t.taskType) && t.title == TaskTitle(t.taskType)
    ensures t.scheduledDate == DateTime(day, 0)
    ensures !t.completed && t.id == d.id
    ensures t.reminderTime.None? && t.reminderEnabled.None? && t.completedDate.None?
    ensures |plants| == 0 ==> t.plantId == "plant-1" && t.plantName == "Unknown Plant"
    ensures t.plantId == "plant-1" || exists i :: 0 <= i < |plants| && plants[i].id == t.plantId
  {
    var k := Scaled(d.plantPick, |plants|);
    var taskType := CareTypes[Scaled(d.typePick, 4)];
    var plantId := if |plants| > 0 && plants[k].id != "" then plants[k].id else "plant-1";
    var plantName := if |plants| > 0 && plants[k].nickname != "" then plants[k].nickname else "Unknown Plant";
    Task(d.id, plantId, taskType, TaskTitle(taskType), DateTime(day, 0), plantName,
         false, d.weather < 0.2, None, None, None, None)
  }

  /** Whether day `d` of the month gets a task: a 30% draw. */
  predicate Selected(draws: seq<DayDraw>, d: int)
  {
    1 <= d <= |draws| && draws[d - 1].chance < 0.3
  }

  /** A generated task for a day of `date`'s month that its draw selected: the task that
      day's draws produce. */
  predicate Generated(t: Task, plants: seq<Plant>, date: Date, draws: seq<DayDraw>)
  {
    && t.scheduledDate.date.year == date.year
    && t.scheduledDate.date.month == date.month
    && Selected(draws, t.scheduledDate.date.day)
    && t == DayTask(plants, t.scheduledDate.date, draws[t.scheduledDate.date.day - 1])
  }

  /** Some task of `tasks` falls on day `d`. */
  predicate HasDay(tasks: seq<Task>, d: int)
  {
    exists i :: 0 <= i < |tasks| && tasks[i].scheduledDate.date.day == d
  }

  /** Tasks in strictly increasing day order: at most one per day. */
  predicate DayOrdered(tasks: seq<Task>)
  {
    forall i, j :: 0 <= i < j < |tasks| ==>
      tasks[i].scheduledDate.date.day < tasks[j].scheduledDate.date.day
  }

  /** `getCalendarTasks`: walks the days of `date`'s month and gives each day a task
      with probability 0.3. The result holds at most one task per day, in day order,
      each dated in that month; a day has a task exactly when its draw selects it. */
  method GetCalendarTasks(plants: seq<Plant>, date: Date, draws: seq<DayDraw>) returns (tasks: seq<Task>)
    requires 1 <= date.month <= 12
    requires |draws| == DaysInMonth(date.year, date.month)
    ensures |tasks| <= |draws|
    ensures forall i :: 0 <= i < |tasks| ==> Generated(tasks[i], plants, date, draws)
    ensures forall i :: 0 <= i < |tasks| ==> Valid(tasks[i].scheduledDate.date)
    ensures DayOrdered(tasks)
    ensures forall d :: Selected(draws, d) ==> HasDay(tasks, d)
  {
    var last := DaysInMonth(date.year, date.month);
    tasks := [];
    var d := 1;
    while d <= last
      invariant 1 <= d <= last + 1
      invariant |tasks| <= d - 1
      invariant forall i :: 0 <= i < |tasks| ==> Generated(tasks[i], plants, date, draws)
      invariant forall i :: 0 <= i < |tasks| ==> tasks[i].scheduledDate.date.day < d
      invariant DayOrdered(tasks)
      invariant forall e :: Selected(draws, e) && e < d ==> HasDay(tasks, e)
    {
      if draws[d - 1].chance < 0.3 {
        var t := DayTask(plants, Date(date.year, date.month, d), draws[d - 1]);
        DayTaskGenerated(plants, date, draws, d);
        ghost var before := tasks;
        tasks := tasks + [t];
        GeneratedAppend(before, t, plants, date, draws);
        DayOrderedAppend(before, t, d);
        assert forall e :: HasDay(before, e) ==> HasDay(tasks, e) by {
          forall e | HasDay(before, e) ensures HasDay(tasks, e) {
            var i :| 0 <= i < |before| && before[i].scheduledDate.date.day == e;
            assert tasks[i] == before[i];
          }
        }
        assert HasDay(tasks, d) by {
          assert tasks[|tasks| - 1].scheduledDate.date.day == d;
        }
      }
      d := d + 1;
    }
  }

  /** The task `DayTask` makes for a selected day `d` is a generated task of the month. */
  lemma DayTaskGenerated(plants: seq<Plant>, date: Date, draws: seq<DayDraw>, d: int)
    requires Selected(draws, d)
    ensures Generated(DayTask(plants, Date(date.year, date.month, d), draws[d - 1]), plants, date, draws)
  {
  }

  /** Appending a generated task keeps every task generated. */
  lemma GeneratedAppend(before: seq<Task>, t: Task, plants: seq<Plant>, date: Date, draws: seq<DayDraw>)
    requires forall i :: 0 <= i < |before| ==> Generated(before[i], plants, date, draws)
    requires Generated(t, plants, date, draws)
    ensures forall i :: 0 <= i < |before + [t]| ==> Generated((before + [t])[i], plants, date, draws)
  {
  }

  /** Appending a task on a later day than all the others keeps the days increasing. */
  lemma DayOrderedAppend(before: seq<Task>, t: Task, d: int)
    requires DayOrdered(before)
    requires forall i :: 0 <= i < |before| ==> before[i].scheduledDate.date.day < d
    requires t.scheduledDate.date.day == d
    ensures DayOrdered(before + [t])
    ensures forall i :: 0 <= i < |before + [t]| ==> (before + [t])[i].scheduledDate.date.day < d + 1
  {
  }

  // ---------------------------------------------------------------- identification stubs

  /** A candidate species with its confidence percentage. */
  datatype Candidate = Candidate(species: Species, confidence: int)

  function Confidence(c: Candidate): int
  {
    c.confidence
  }

  /** The first `|draws|` species, each scored `Math.floor(Math.random() * 30) + 70`. */
  function Score(species: seq<Species>, draws: seq<Draw>): (r: seq<Candidate>)
    requires |draws| <= |species|
    ensures |r| == |draws|
    ensures forall i :: 0 <= i < |r| ==> r[i].species == species[i]
    ensures forall i :: 0 <= i < |r| ==> 70 <= r[i].confidence <= 99
  {
    seq(|draws|, i requires 0 <= i < |draws| => Candidate(species[i], Scaled(draws[i], 30) + 70))
  }

  /** `identifyPlant`: the first three species (fewer if the list is shorter), each with a
      confidence in 70..99, most confident first. The photo is not inspected. */
  function IdentifyPlant(species: seq<Species>, draws: seq<Draw>): (r: seq<Candidate>)
    requires |draws| == if |species| < 3 then |species| else 3
    ensures |r| == |draws|
    ensures SortedDesc(r, Confidence)
    ensures forall i :: 0 <= i < |r| ==> 70 <= r[i].confidence <= 99
    ensures forall i :: 0 <= i < |r| ==> r[i].species in species[..|draws|]
    ensures multiset(r) == multiset(Score(species, draws))
  {
    var scored := Score(species, draws);
    var r := SortDesc(scored, Confidence);
    SameMembers(r, scored);
    assert forall i :: 0 <= i < |scored| ==> scored[i].species == species[..|draws|][i];
    r
  }

  /** The issue `diagnosePlant` reports; the causes and treatments are fixed text. */
  datatype Diagnosis = Diagnosis(issue: string, confidence: int)

  /** `diagnosePlant`: one of the two fixed issues, chosen at random; the image and the
      symptoms are not inspected. */
  function DiagnosePlant(pick: Draw): (r: Diagnosis)
    ensures r == Diagnosis("Overwatering", 85) || r == Diagnosis("Nutrient deficiency", 78)
    ensures 70 <= r.confidence <= 99
  {
    var issues := [Diagnosis("Overwatering", 85), Diagnosis("Nutrient deficiency", 78)];
    issues[Scaled(pick, 2)]
  }
}

=== FILE: records.dfy ===
/** The records the services store and the views pass around, with the shallow
    merge (`{ ...record, ...data }`) that the `update` operations perform. */
module Records {
  import opened Outcomes
  import opened Dates

  // ---------------------------------------------------------------- plants

  /** A stored photo of a plant. */
  datatype Photo = Photo(id: string, url: string, capturedAt: string)

  /** A species of the static reference data; only the fields the core reads. */
  datatype Species = Species(id: string, commonName: string, scientificName: string)

  /** A plant record. `plantedDate` is in milliseconds since the epoch; the sensor-like
      gauges are percentages and degrees; `lastWatered` / `lastFertilized` are ISO
      timestamps or null. */
  datatype Plant = Plant(
    id: string,
    userId: string,
    speciesId: string,
    nickname: string,
    location: string,
    plantedDate: int,
    healthStatus: string,
    healthScore: int,
    waterLevel: int,
    lightLevel: int,
    temperature: int,
    lastWatered: Option<string>,
    lastFertilized: Option<string>,
    photos: seq<Photo>,
    notes: string)

  /** The `data` argument of `update`: the keys it carries (`Some`) and those it omits. */
  datatype PlantPatch = PlantPatch(
    id: Option<string>,
    userId: Option<string>,
    speciesId: Option<string>,
    nickname: Option<string>,
    location: Option<string>,
    plantedDate: Option<int>,
    healthStatus: Option<string>,
    healthScore: Option<int>,
    waterLevel: Option<int>,
    lightLevel: Option<int>,
    temperature: Option<int>,
    lastWatered: Option<Option<string>>,
    lastFertilized: Option<Option<string>>,
    photos: Option<seq<Photo>>,
    notes: Option<string>)

  /** The patch that carries no key. */
  const NoPlantChange: PlantPatch :=
    PlantPatch(None, None, None, None, None, None, None, None, None, None, None, None, None, None, None)

  /** A key of `data` overrides the record's value; an absent key keeps it. */
  function Pick<T>(patch: Option<T>, current: T): T
  {
    if patch.Some? then patch.value else current
  }

  /** One key of a shallow merge: the patch's value when it carries the key, the old
      value otherwise. */
  predicate Merged<T(==)>(patch: Option<T>, before: T, after: T)
  {
    (patch.Some? ==> after == patch.value) && (patch.None? ==> after == before)
  }

  /** `{ ...plant, ...data }`: every key `data` carries takes its value, every other key
      keeps the plant's. */
  function MergePlant(p: Plant, d: PlantPatch): (r: Plant)
    ensures Merged(d.id, p.id, r.id) && Merged(d.userId, p.userId, r.userId)
    ensures Merged(d.speciesId, p.speciesId, r.speciesId) && Merged(d.nickname, p.nickname, r.nickname)
    ensures Merged(d.location, p.location, r.location) && Merged(d.plantedDate, p.plantedDate, r.plantedDate)
    ensures Merged(d.healthStatus, p.healthStatus, r.healthStatus) && Merged(d.healthScore, p.healthScore, r.healthScore)
    ensures Merged(d.waterLevel, p.waterLevel, r.waterLevel) && Merged(d.lightLevel, p.lightLevel, r.lightLevel)
    ensures Merged(d.temperature, p.temperature, r.temperature)
    ensures Merged(d.lastWatered, p.lastWatered, r.lastWatered)
    ensures Merged(d.lastFertilized, p.lastFertilized, r.lastFertilized)
    ensures Merged(d.photos, p.photos, r.photos) && Merged(d.notes, p.notes, r.notes)
  {
    Plant(
      Pick(d.id, p.id), Pick(d.userId, p.userId), Pick(d.speciesId, p.speciesId),
      Pick(d.nickname, p.nickname), Pick(d.location, p.location),
      Pick(d.plantedDate, p.plantedDate), Pick(d.healthStatus, p.healthStatus),
      Pick(d.healthScore, p.healthScore), Pick(d.waterLevel, p.waterLevel),
      Pick(d.lightLevel, p.lightLevel), Pick(d.temperature, p.temperature),
      Pick(d.lastWatered, p.lastWatered), Pick(d.lastFertilized, p.lastFertilized),
      Pick(d.photos, p.photos), Pick(d.notes, p.notes))
  }

  /** Two successive updates equal one update with the union of their keys, the later
      patch winning where both carry a key. */
  function ThenPlant(a: PlantPatch, b: PlantPatch): PlantPatch
  {
    PlantPatch(
      if b.id.Some? then b.id else a.id,
      if b.userId.Some? then b.userId else a.userId,
      if b.speciesId.Some? then b.speciesId else a.speciesId,
      if b.nickname.Some? then b.nickname else a.nickname,
      if b.location.Some? then b.location else a.location,
      if b.plantedDate.Some? then b.plantedDate else a.plantedDate,
      if b.healthStatus.Some? then b.healthStatus else a.healthStatus,
      if b.healthScore.Some? then b.healthScore else a.healthScore,
      if b.waterLevel.Some? then b.waterLevel else a.waterLevel,
      if b.lightLevel.Some? then b.lightLevel else a.lightLevel,
      if b.temperature.Some? then b.temperature else a.temperature,
      if b.lastWatered.Some? then b.lastWatered else a.lastWatered,
      if b.lastFertilized.Some? then b.lastFertilized else a.lastFertilized,
      if b.photos.Some? then b.photos else a.photos,
      if b.notes.Some? then b.notes else a.notes)
  }

  /** The shallow-merge laws: an empty patch changes nothing, applying a patch twice is
      the same as applying it once, and a field the patch omits keeps its value. */
  lemma MergePlantLaws(p: Plant, d: PlantPatch)
    ensures MergePlant(p, NoPlantChange) == p
    ensures MergePlant(MergePlant(p, d), d) == MergePlant(p, d)
    ensures d.waterLevel.None? ==> MergePlant(p, d).waterLevel == p.waterLevel
    ensures d.id.None? ==> MergePlant(p, d).id == p.id
    ensures d.id.Some? ==> MergePlant(p, d).id == d.id.value
  {
  }

  /** Merging `a` and then `b` is merging their composition. */
  lemma MergePlantCompose(p: Plant, a: PlantPatch, b: PlantPatch)
    ensures MergePlant(MergePlant(p, a), b) == MergePlant(p, ThenPlant(a, b))
  {
  }

  // ---------------------------------------------------------------- tasks

  /** The `type` strings of the four care kinds. */
  predicate IsCareName(name: string)
  {
    name == "water" || name == "fertilize" || name == "prune" || name == "repot"
  }

  /** Any other type name a fixture task may carry. */
  type OtherName = name: string | !IsCareName(name) witness "other"

  /** The care-task kinds; fixture tasks may carry any other type name. */
  datatype TaskType = Water | Fertilize | Prune | Repot | OtherType(name: OtherName)

  /** The four kinds the calendar generator draws from. */
  predicate IsCareType(t: TaskType)
  {
    !t.OtherType?
  }

  /** The task's `type` string: the four care kinds and any other fixture name as is. */
  function TypeName(t: TaskType): (name: string)
    ensures IsCareType(t) <==> IsCareName(name)
  {
    match t
    case Water => "water"
    case Fertilize => "fertilize"
    case Prune => "prune"
    case Repot => "repot"
    case OtherType(name) => name
  }

  /** A care task. The reminder fields are absent (`None`) until a reminder is set. */
  datatype Task = Task(
    id: string,
    plantId: string,
    taskType: TaskType,
    title: string,
    scheduledDate: DateTime,
    plantName: string,
    completed: bool,
    weatherAdjusted: bool,
    completedDate: Option<string>,
    reminderTime: Option<string>,
    reminderEnabled: Option<bool>,
    reminderSent: Option<bool>)

  // ---------------------------------------------------------------- journal

  /** The five journal entry kinds of the entry form. */
  datatype EntryType = Note | Milestone | Problem | Harvest | PhotoUpdate

  /** Optional measurements; the entry form always supplies all three, possibly empty. */
  datatype Measurements = Measurements(height: Option<string>, width: Option<string>, leaves: Option<string>)

  /** A stored journal entry; `date` is in milliseconds since the epoch. */
  datatype JournalEntry = JournalEntry(
    id: string,
    plantId: string,
    entryType: EntryType,
    title: string,
    notes: string,
    date: int,
    photos: seq<string>,
    measurements: Measurements)

  /** The `data` argument of the journal `update`. */
  datatype EntryPatch = EntryPatch(
    id: Option<string>,
    plantId: Option<string>,
    entryType: Option<EntryType>,
    title: Option<string>,
    notes: Option<string>,
    date: Option<int>,
    photos: Option<seq<string>>,
    measurements: Option<Measurements>)

  const NoEntryChange: EntryPatch := EntryPatch(None, None, None, None, None, None, None, None)

  /** `{ ...entry, ...data }`: every key `data` carries takes its value, every other key
      keeps the entry's. */
  function MergeEntry(e: JournalEntry, d: EntryPatch): (r: JournalEntry)
    ensures Merged(d.id, e.id, r.id) && Merged(d.plantId, e.plantId, r.plantId)
    ensures Merged(d.entryType, e.entryType, r.entryType) && Merged(d.title, e.title, r.title)
    ensures Merged(d.notes, e.notes, r.notes) && Merged(d.date, e.date, r.date)
    ensures Merged(d.photos, e.photos, r.photos) && Merged(d.measurements, e.measurements, r.measurements)
  {
    JournalEntry(
      Pick(d.id, e.id), Pick(d.plantId, e.plantId), Pick(d.entryType, e.entryType),
      Pick(d.title, e.title), Pick(d.notes, e.notes), Pick(d.date, e.date),
      Pick(d.photos, e.photos), Pick(d.measurements, e.measurements))
  }

  /** The shallow-merge laws for journal entries. */
  lemma MergeEntryLaws(e: JournalEntry, d: EntryPatch)
    ensures MergeEntry(e, NoEntryChange) == e
    ensures MergeEntry(MergeEntry(e, d), d) == MergeEntry(e, d)
    ensures d.plantId.None? ==> MergeEntry(e, d).plantId == e.plantId
    ensures d.plantId.Some? ==> MergeEntry(e, d).plantId == d.plantId.value
  {
  }

  /** Different kinds carry different type names, so a task's `type` string determines
      its kind. */
  lemma TypeNameInjective(a: TaskType, b: TaskType)
    ensures TypeName(a) == TypeName(b) <==> a == b
  {
  }
}

=== FILE: routes.dfy ===
/** The route table, the bottom-navigation filter, and the layout's active-tab test. */
module Routes {
  import opened Outcomes
  import opened Lists

  /** A route record; `icon` is absent on the detail and add-plant routes. `navLabel` is
      the source's `label` field, renamed because `label` is a Dafny keyword. */
  datatype Route = Route(id: string, navLabel: string, path: string, icon: Option<string>, hideInNav: bool)

  /** The `routes` object as (key, record) pairs in declaration order, which is the
      order `Object.values` yields for these keys. */
  const RouteTable: seq<(string, Route)> := [
    ("home",        Route("home", "Home", "/", Some("Home"), true)),
    ("dashboard",   Route("dashboard", "Dashboard", "/dashboard", Some("LayoutDashboard"), false)),
    ("plants",      Route("plants", "My Plants", "/plants", Some("Leaf"), false)),
    ("calendar",    Route("calendar", "Calendar", "/calendar", Some("Calendar"), false)),
    ("diagnose",    Route("diagnose", "Diagnose", "/diagnose", Some("Search"), false)),
    ("journal",     Route("journal", "Journal", "/journal", Some("BookOpen"), false)),
    ("plantDetail", Route("plantDetail", "Plant Detail", "/plants/:id", None, true)),
    ("addPlant",    Route("addPlant", "Add Plant", "/add-plant", None, true))
  ]

  /** `routeArray = Object.values(routes)`: all eight records, each filed under its own id. */
  function RouteArray(): (r: seq<Route>)
    ensures |r| == |RouteTable| == 8
    ensures forall i :: 0 <= i < |r| ==> r[i] == RouteTable[i].1 && r[i].id == RouteTable[i].0
  {
    seq(|RouteTable|, i requires 0 <= i < |RouteTable| => RouteTable[i].1)
  }

  function Visible(r: Route): bool
  {
    !r.hideInNav
  }

  /** Only the five records between the hidden home route and the two hidden
      sub-pages pass the navigation filter. */
  lemma VisibleAreMiddle()
    ensures Keep(RouteArray(), Visible) == RouteArray()[1..6]
  {
  }

  /** `navigationRoutes`: the routes without `hideInNav`, in declaration order. */
  function NavigationRoutes(): (r: seq<Route>)
    ensures forall i :: 0 <= i < |r| ==> !r[i].hideInNav && r[i] in RouteArray()
    ensures forall i :: 0 <= i < |RouteArray()| && !RouteArray()[i].hideInNav ==> RouteArray()[i] in r
  {
    KeepComplete(RouteArray(), Visible);
    Keep(RouteArray(), Visible)
  }

  /** The bottom bar shows exactly five tabs: dashboard, plants, calendar, diagnose and
      journal, in that order. */
  lemma NavigationTabs()
    ensures |NavigationRoutes()| == 5
    ensures NavigationRoutes()[0].id == "dashboard" && NavigationRoutes()[1].id == "plants"
    ensures NavigationRoutes()[2].id == "calendar" && NavigationRoutes()[3].id == "diagnose"
    ensures NavigationRoutes()[4].id == "journal"
  {
    var all := RouteArray();
    VisibleAreMiddle();
    assert NavigationRoutes() == all[1..6];
    assert all[1].id == "dashboard" && all[2].id == "plants" && all[3].id == "calendar";
    assert all[4].id == "diagnose" && all[5].id == "journal";
  }

  /** `pathname.startsWith(prefix)`. */
  predicate StartsWith(s: string, prefix: string)
  {
    |prefix| <= |s| && s[..|prefix|] == prefix
  }

  /** The layout's own active test: an exact path match, or, for every tab but the
      dashboard, a raw string-prefix match. */
  function IsActive(pathname: string, routePath: string): (active: bool)
    ensures pathname == routePath ==> active
    ensures active ==> StartsWith(pathname, routePath)
    ensures routePath == "/dashboard" ==> (active <==> pathname == routePath)
  {
    pathname == routePath || (routePath != "/dashboard" && StartsWith(pathname, routePath))
  }

  /** The tab's icon and label colour: highlighted when the layout's test or the
      router's own `NavLink` flag says the tab is active. */
  function TabColor(pathname: string, route: Route, navIsActive: bool): (c: string)
    ensures c == "text-primary" <==> IsActive(pathname, route.path) || navIsActive
    ensures c == "text-primary" || c == "text-surface-600"
  {
    if IsActive(pathname, route.path) || navIsActive then "text-primary" else "text-surface-600"
  }

  /** The layout's test accepts the exact path, accepts any extension of a non-dashboard
      path, and treats the dashboard as exact-match only. */
  lemma IsActiveCharacterized(pathname: string, routePath: string)
    ensures pathname == routePath ==> IsActive(pathname, routePath)
    ensures routePath != "/dashboard" ==> (IsActive(pathname, routePath) <==> StartsWith(pathname, routePath))
    ensures routePath == "/dashboard" ==> (IsActive(pathname, routePath) <==> pathname == "/dashboard")
  {
  }

  /** A plant's detail page keeps the My Plants tab active, and, because the prefix is
      raw rather than per path segment, so does an unrelated path such as `/plantsx`. */
  lemma PrefixExamples()
    ensures IsActive("/plants/42", "/plants")
    ensures IsActive("/plantsx", "/plants")
    ensures !IsActive("/dashboard/x", "/dashboard")
  {
    assert "/plants/42"[..7] == "/plants";
    assert "/plantsx"[..7] == "/plants";
  }
}
